=== FILE: README.md ===
# Text2Image in Dafny

Text2Image renders a piece of text into a PNG image with Pillow. This
project models the part of it that decides *where* things go and *how the
command line reads its arguments*; the pixels themselves are not modelled.

- **Canvas layout** (`generate_text_image`, text2image.py): from the size and
  descent of the rendered text it computes the canvas size, the text origin
  and the shadow origin. The steps are the shadow extension, the minimum
  size, the aspect-ratio fit and the baseline alignment (module `Layout`).
- **String converters**:
  - `sanitize_filename` (module `Sanitize`);
  - the `px`/`pt` units and the argument types of t2i.py: measures, Vec2
    pairs and alignments (module `Measures`);
  - the colour parsers `color` and `color_type` (module `Colors`).
- **Command-line rewrites** (module `Cli`):
  - the escape rewrite that turns `\n` into a newline and `\\` into a
    backslash;
  - the output file name derived from the text.

Shared pieces live in `Types` and `Text`:

- `Types`: `Vec2`, `Rgb`, `Option`, and the `Result` that stands for "returns
  a value or raises `ValueError`".
- `Text`: Python's `int()` on digit strings, `str.split`, `str.strip` and
  `str.isspace`.

Integers are unbounded as in Python. Python's floor division `//` by 2 is
Dafny's `/ 2`. Every `int(a / b)` of a float quotient is modelled as the
exact rational quotient truncated toward zero (`Layout.TruncDiv`). The
aspect ratio is an exact fraction `Ratio(num, den)` with `den > 0`.

Points worth knowing about the code:

- **Aspect fitting can shrink one dimension.** The code grows the
  dimension whose desired size is larger and recomputes the other from the
  ratio, which can make it smaller: a 3x3 text fitted to 3/2 gets a 4x2
  canvas, with the text one pixel above the top edge
  (`Layout.FitAspectMayShrink`, `Layout.LayoutAspectMayCrop`). The content
  stays inside the canvas only without aspect fitting
  (`Layout.LayoutKeepsContentInside`).
- **`pt` truncates toward zero** (`int()` of the product), so `pt(-1)` is
  -1 (`Measures.Pt`).
- **The height test of the minimum-size step uses `<=`** while the width
  test uses `<`. The difference cannot be observed
  (`Layout.MinSizeComparisonIrrelevant`).

## Model

| member | source | states |
|---|---|---|
| Types.TryMap | text2image.py:82 | a tuple built from a generator of conversions succeeds exactly when every element converts; the values come in order, one per element; otherwise the error is that of the first element that fails |
| Text.ParseDigits | t2i.py:28 | `int()` on a plain digit string succeeds exactly for a non-empty string of digits of the base; failure names the offending text |
| Text.ParseSigned | t2i.py:28 | `int()` accepts one optional leading '+' or '-' before at least one digit, and nothing else; a '-' negates the digit value and a '+' keeps it |
| Text.ParseInt | text2image.py:82 | `int(x)` in base 10 accepts only a sign followed by decimal digits |
| Text.ParseIntOfString | text2image.py:82 | every integer printed in decimal reads back as itself |
| Text.NatToStringValue | text2image.py:38 | the decimal spelling of a code point has the code point's value |
| Text.NatToString | text2image.py:38 | the decimal spelling `str(n)` is non-empty, all digits, and without a leading zero |
| Text.Split | text2image.py:82 | `str.split` on one separator always yields at least one piece |
| Text.SplitPiecesFree | text2image.py:82 | no piece produced by `str.split` contains the separator |
| Text.JoinSplit | text2image.py:82 | joining the pieces with the separator gives the original string back |
| Text.SplitJoin | text2image.py:82 | separator-free pieces joined by the separator split back into exactly those pieces |
| Text.SplitNoSeparator | text2image.py:82 | a string without the separator is a single piece |
| Text.SplitPiece | t2i.py:59 | a separator-free first piece followed by the separator is split off as it is |
| Text.SplitPair | t2i.py:59 | "a,b" with comma-free parts splits into exactly [a, b] |
| Text.SplitTriple | text2image.py:82 | "r,g,b" with comma-free parts splits into exactly [r, g, b] |
| Text.StripLeading | t2i.py:174 | `lstrip` removes a prefix made only of the character, and the result does not start with it |
| Text.StripTrailing | t2i.py:174 | `rstrip` removes a suffix made only of the character, and the result does not end with it |
| Text.Strip | t2i.py:174 | `strip('.')` yields an infix that neither starts nor ends with the character; everything cut off on either side is that character |
| Text.StripNoop | t2i.py:174 | `strip` leaves a string that neither starts nor ends with the character unchanged |
| Text.StripAll | t2i.py:174 | a string made only of the character is stripped away entirely |
| Text.StripLeadingPrefix | t2i.py:174 | `lstrip` removes a prefix made only of the character and stops at the first other character |
| Text.StripTrailingSuffix | t2i.py:174 | `rstrip` removes a suffix made only of the character and stops at the last other character |
| Text.IsSpace | text2image.py:35 | among ASCII characters, exactly space, tab, newline, carriage return, vertical tab, form feed and the four separators 0x1C-0x1F count as whitespace; no whitespace character is an ASCII digit or letter |
| Sanitize.Replacement | text2image.py:33-39 | an unsafe whitespace character becomes one space; an unsafe code point of 128 or more becomes `U-<decimal>-`; anything else is dropped; the replacement is always safe |
| Sanitize.SanitizeChar | text2image.py:33-40 | a safe character is kept as it is; whitespace becomes one space (the space is the only safe whitespace); any other unsafe character becomes `U-<decimal>-` from code point 128 on and is dropped below it; the result is safe |
| Sanitize.SanitizeFilename | text2image.py:31-40 | the result contains only `[a-zA-Z0-9. -]`, and a name that is already safe is unchanged |
| Sanitize.SanitizeOne | text2image.py:31-40 | a one-character name is rewritten by the replacement callback exactly when the character is unsafe, so with `SanitizeConcat` the rewrite of every name is fixed |
| Sanitize.SanitizeConcat | text2image.py:40 | the rewrite works character by character: sanitising a concatenation is concatenating the sanitised halves |
| Sanitize.SanitizeIdempotent | text2image.py:40 | sanitising twice is the same as sanitising once |
| Measures.Pt | text2image.py:43 | points convert to pixels at 4/3, truncated toward zero for either sign |
| Measures.Px | text2image.py:42 | a pixel count is used as it is |
| Measures.PtOdd | text2image.py:43 | the point conversion is odd: negating the input negates the output |
| Measures.AnyMeasure | t2i.py:26-33 | the only failure is `int()` refusing the number |
| Measures.AnyMeasureSpellings | t2i.py:26-33 | "Npx" and a bare "N" read back as N pixels, and "Npt" as the point conversion of N |
| Measures.AnyMeasureDigits | t2i.py:26-33 | every number `int()` accepts here, with a sign or leading zeros, reads as that number with the "px" suffix or none, and as its point conversion with "pt" |
| Measures.Measure | t2i.py:35-39 | accepts exactly the measures that `any_measure_type` accepts with a result of at least zero, and reads the same value; a negative value is the "non-negative" error, and a parse error is passed through |
| Measures.Vec2Type | t2i.py:58-62 | succeeds exactly when the string has two comma-separated pieces that are both measures, and reads them in order |
| Measures.PositiveVec2Type | t2i.py:64-70 | succeeds exactly when there are two pieces that are both non-negative measures; both components are then at least zero |
| Measures.PositiveVec2AgreesWithVec2 | t2i.py:58-70 | the non-negative pair type accepts exactly the pairs the signed type accepts with both components at least zero, and reads the same pair |
| Measures.Vec2RoundTrip | t2i.py:58-62 | any pair printed as "a,b" reads back as (a, b) |
| Measures.PositiveVec2RoundTrip | t2i.py:64-70 | any non-negative pair printed as "a,b" reads back as (a, b) |
| Measures.AlignmentType | t2i.py:111-114 | accepts exactly "left", "center" and "right", returns its argument unchanged, and refuses everything else with the alignment error |
| Colors.HexInt | text2image.py:61 | reading a hex string without a sign succeeds exactly on a non-empty string of hex digits, with their positional value |
| Colors.HexColorWith | text2image.py:58-80 | a hex spelling whose digit count is not 1, 2, 3 or 6 always fails with the digit-count error, with or without the sign leniency |
| Colors.HexColorDigits | text2image.py:60-79 | on plain hex digits the shifts and masks read each component off its own digits: L becomes LL, LL is a grey, RGB doubles each digit, RRGGBB takes each byte; every component is a byte |
| Colors.SplitNibbles | text2image.py:69-71 | `(v & 0xF00) >> 8`, `(v & 0x0F0) >> 4` and `v & 0x00F` recover the three hex digits of v |
| Colors.SplitBytes | text2image.py:76-78 | the masks and shifts of the six-digit branch recover the three bytes of v |
| Colors.HexColor | text2image.py:58-80 | a hex colour is accepted exactly when it has 1, 2, 3 or 6 hex digits; every component is a byte, read from the digits as above |
| Colors.HexPair | text2image.py:76-78 | a byte is spelled by two hex digits that read back as that byte |
| Colors.HexRoundTrip | text2image.py:58-80 | every colour with byte components is read back from its six-digit "#rrggbb" spelling |
| Colors.TripleColor | text2image.py:82-88 | "R,G,B" is accepted exactly when it has three pieces that are decimal integers in [0,255], and reads them in order |
| Colors.TripleRoundTrip | text2image.py:82-88 | a colour printed as "R,G,B" reads back as itself exactly when its components are bytes; otherwise the result is the range error |
| Colors.ParseRgb | text2image.py:58-88 | a '#' prefix selects hex on the rest, otherwise "0x" selects hex, otherwise the decimal triple; the colour read is always in byte range |
| Colors.ParseRgbWith | text2image.py:58-88 | the dispatch as written: '#' before "0x" before the decimal triple; without the sign leniency it reads exactly what the corrected reading reads |
| Colors.Color | text2image.py:45-88 | the result is None exactly for "transparent"; any colour returned is in byte range |
| Colors.ColorType | t2i.py:75-106 | the corrected reading of `color_type` (hex digits only; see Findings): every colour it accepts is in byte range |
| Colors.ColorTypeMatchesColor | t2i.py:75-106 | the command-line colour type refuses "transparent", and otherwise accepts and reads exactly what `color` does |
| Colors.ColorAsWritten | text2image.py:45-88 | the code as written, whose hex branch lets `int(..., 16)` read a sign: None exactly for "transparent" |
| Colors.ColorAsWrittenNegative | text2image.py:63-65 | "#-1" is accepted as written and yields the out-of-range colour (-1, -1, -1); the corrected reading refuses it |
| Colors.ColorTypeAsWrittenNegative | t2i.py:76-83 | `color_type` as written reads "#-1" as (-1, -1, -1); the corrected reading refuses it |
| Colors.ColorAgreesWithAsWritten | text2image.py:45-88 | wherever the corrected reading accepts a colour, the code as written reads the same colour |
| Cli.Unescape | t2i.py:168-172 | the rewrite never lengthens the text, and text without a backslash is unchanged |
| Cli.Escape | t2i.py:168-172 | the escaped spelling of a text contains no newline |
| Cli.UnescapeEscape | t2i.py:168-172 | every text, including newlines and backslashes, can be typed: the rewrite undoes `Escape` |
| Cli.UnescapePlain | t2i.py:172 | a character that does not start a match is copied, including a backslash at the very end of the text |
| Cli.FinalBackslashKept | t2i.py:172 | a backslash at the very end of a text without other backslashes starts no match and is kept |
| Cli.LoneBackslashKept | t2i.py:172 | a backslash before any character other than 'n' or a backslash is kept, together with that character |
| Cli.UnescapeMatch | t2i.py:168-172 | whatever follows, a backslash and 'n' become a newline and a doubled backslash becomes one backslash |
| Cli.EscapedBackslashBeforeN | t2i.py:172 | matches do not overlap: `\\n` typed as three characters becomes a backslash and an 'n', not a newline |
| Cli.OutputFilename | t2i.py:174-176 | the output name ends in ".png", contains only safe characters, and starts with a dot only when it is exactly ".png"; when the sanitised text has no dot at either end, the name is that text, with ".png" appended unless it already ends so |
| Cli.WithPng | t2i.py:175-176 | the name ends in ".png": a name already ending so is kept, any other has ".png" appended; a safe name stays safe and keeps its first character |
| Cli.OutputFilenameKeepsPng | t2i.py:174-176 | a safe text that already ends in ".png" and does not start with a dot is used as the name as it is |
| Cli.OutputFilenameStable | t2i.py:174-176 | an output name other than ".png" is its own output name: fed back in as the text, it comes out unchanged |
| Cli.OutputFilenameSanitised | t2i.py:174-176 | the name depends on the text only through its sanitised form: naming the sanitised text gives the same name |
| Cli.DotsName | t2i.py:174-176 | every text made only of dots, the empty text included, gives the name ".png" |
| Cli.LeadingDotDropped | t2i.py:174-176 | a safe name behind one leading dot loses that dot, so ".png" fed back in becomes "png.png" |
| Cli.DotsAround | t2i.py:174-176 | dots on either side of a safe name are all stripped, so "..abc." gives "abc.png" |
| Cli.DefaultFilename | text2image.py:384-388 | the default name ends in ".png" and contains only safe characters; it is the sanitised text when that already ends in ".png", and the sanitised text with ".png" appended otherwise |
| Cli.DefaultFilenameStable | text2image.py:384-388 | the default name is a fixed point: choosing the default name for it again gives the same name |
| Layout.TruncDiv | text2image.py:303 | `int(a / b)` truncates toward zero: for a >= 0 it is the floor quotient, and for a < 0 the quotient rounded up |
| Layout.EffectiveOffset | text2image.py:266-268 | without a shadow colour the offset is (0,0); with one it is the given offset |
| Layout.EffectivePads | text2image.py:270-272 | a `padding` pair (h, v) gives h on the left and right and v on the top and bottom; without it `padx` gives left and right and `pady` top and bottom |
| Layout.ShadowFrame | text2image.py:274-289 | the canvas is the text plus its padding plus the absolute shadow offset in each direction; a negative offset moves the text origin by its size, so that both layers start at or after the top/left padding and end at the canvas edge |
| Layout.ApplyMinSize | text2image.py:291-298 | each dimension becomes the larger of itself and the minimum, and never shrinks; the origin moves by half the growth, rounded down |
| Layout.MinSizeComparisonIrrelevant | text2image.py:293-298 | using `<=` for the height and `<` for the width gives the same result as `<` for both |
| Layout.FallbackRatio | text2image.py:299-300 | without an explicit ratio and with a non-zero minimum height, the ratio is min_width/min_height; an explicit ratio, or no minimum size, leaves the ratio as it is; a zero minimum height gives no ratio |
| Layout.DesiredWidth | text2image.py:303 | the desired width is never below the current width; for a non-negative height it is `int(height*p/q)` when that is larger (within one pixel below height*p/q) and the current width otherwise |
| Layout.DesiredHeight | text2image.py:304 | the desired height is never below the current height; for a non-negative width it is `int(width*q/p)` when that is larger (within one pixel below width*q/p) and the current height otherwise |
| Layout.FitAspect | text2image.py:302-320 | a ratio that is absent or at most zero leaves the frame unchanged; otherwise at least one dimension does not shrink |
| Layout.FitAspectBranches | text2image.py:302-320 | the larger desired size in raw pixels wins; that dimension becomes its desired size and the other is recomputed from the ratio; each move is centred with floor division |
| Layout.FitAspectKeepsRatio | text2image.py:302-320 | the fitted canvas has the ratio p/q up to one truncated pixel: `-q < width*q - height*p < p` |
| Layout.RecomputedWithinOne | text2image.py:310 | a dimension recomputed as `int(d * a / b)` lies less than one unit below the exact value |
| Layout.FitAspectMayShrink | text2image.py:302-320 | a 3x3 frame fitted to 3/2 becomes 4x2, moving the origin up by one pixel |
| Layout.BaselineOffset | text2image.py:326-332 | the nudge is an error exactly for a mode outside none/broad/perfect; it is 0 for "none", half the descent rounded down (floor, also for a negative descent) for "broad", and for "perfect" the descent minus half the text height rounded down |
| Layout.PerfectCentresBaseline | text2image.py:330-346 | in mode "perfect", when the nudged origin is within the bounds, the baseline lands at the centre of the unaligned text box: half the text height below its top, rounded up |
| Layout.LowerBound | text2image.py:341 | the least text origin at which neither the text nor its shadow starts inside the top padding |
| Layout.UpperBound | text2image.py:342 | the greatest text origin at which neither the text nor its shadow, with the bottom padding, passes the bottom edge |
| Layout.AlignBaseline | text2image.py:325-346 | multi-line text and mode "none" are untouched; for single-line text an unknown mode is the only error. Otherwise only the vertical origin moves, to origin + nudge clamped into the bounds: exactly that value within the bounds, the lower bound when it falls below them, and the upper bound when it falls above them or when the bounds cross |
| Layout.Canvas | text2image.py:274-320 | without aspect fitting the canvas holds the padded text and its shadow, meets the minimum size, and puts the text origin between the clamping bounds, so that the bounds never cross |
| Layout.ComputeLayout | text2image.py:246-361 | the layout fails exactly for single-line text with an unknown baseline mode; the shadow is drawn at the text origin plus the effective offset |
| Layout.LayoutTight | text2image.py:274-277 | with no shadow, no minimum size, no active ratio and no baseline nudge, the canvas is the text plus its padding, with the text at the top-left padding corner |
| Layout.LayoutPaddingOverride | text2image.py:270-272 | a `padding` pair (h, v) lays out exactly as `padx = (h, h)` and `pady = (v, v)` |
| Layout.LayoutMultilineIgnoresBaseline | text2image.py:246-249 | multi-line text lays out the same under every baseline mode, unknown modes included |
| Layout.LayoutKeepsContentInside | text2image.py:274-346 | without aspect fitting, the canvas holds text, padding and shadow: both layers start at or after the top/left padding, and text plus bottom/right padding plus shadow extent ends inside the canvas |
| Layout.LayoutKeepsRatio | text2image.py:299-346 | with aspect fitting active, from an explicit ratio or from the minimum size, and no negative padding, the final canvas has that ratio up to one truncated pixel |
| Layout.LayoutAspectMayCrop | text2image.py:302-320 | a 3x3 text with no padding, shadow or minimum size, fitted to 3/2, gets a 4x2 canvas with the text one pixel above the top edge |
| Layout.LayoutShadowOffset | text2image.py:278-289 | with shadow offset (5,5) and no padding, the canvas is 5 pixels larger each way and the shadow sits 5 pixels right of and below the text |

## Left out

- Pillow rendering is not modelled: `new_image_from_text`, image creation,
  `alpha_composite` and the shadow blur. The rendered text enters as its
  width, height and descent (`Layout.Metrics`).
- `colorize_image` and `shadow_color_blend` are not modelled: they are float
  pixel arithmetic on an image.
- `ratio_type` is not modelled: it parses floats. The ratio enters the layout
  as an exact fraction.
- Measures.Pt: computes 4x/3 truncated toward zero exactly. The source
  multiplies by the double `96.0/72.0`, which is 4/3 times (1 - 2^-54); for
  |x| below 2^50 the rounded product still truncates to the same integer
  (where 4x/3 is whole the error is at most half a unit in the last place,
  and an exact tie rounds back to it). For |x| beyond 2^53 the conversion of
  x to a double itself loses precision and the source's result can differ
  by more than a pixel; that range is not modelled.
- Layout.FitAspect: divides exactly by the ratio. The source multiplies and
  divides by a double, whose rounding is not modelled.
- Layout.FallbackRatio: gives the exact fraction min_width/min_height, not
  its double approximation.
- Text.ParseInt: accepts only an optional sign and ASCII digits. Python's
  `int()` also skips surrounding whitespace, accepts `_` between digits and
  non-ASCII decimal digits, and in base 16 accepts a `0x` prefix. These
  leniencies are not modelled; so "255, 0, 0" and "#0x1" are refused here.
- Sanitize.SanitizeFilename: a Dafny character cannot be a lone surrogate.
  Python decodes undecodable command-line bytes to the surrogates
  U+DC80..U+DCFF, which `sanitize_filename` rewrites to `U-<decimal>-`; such
  text cannot be written down in this model.
- Text.IsSpace: written out as the code points Python's `str.isspace`
  accepts; the Unicode database itself is not modelled.
- argparse, help text, the `get_*_format` strings, directory creation, font
  loading, `os.path.join`, printing and saving the image are I/O and are not
  modelled.
- The background colour conversion (text2image.py:348-351) only feeds
  Pillow and is not modelled.
- Canvas sizes are not checked for being non-negative: what Pillow does
  with a negative size at `Image.new` is outside this model.
- test.py is not part of this model.

## Findings

| source | as written | input that shows it | evidently intended | confidence | as-written member | corrected member |
|---|---|---|---|---|---|---|
| text2image.py:58-65 | the hex digits are read with `int(hex_str, base=16)`, which also accepts a leading sign; the two-digit branch returns the value without masking it (t2i.py:76-83 is the same code) | `color("#-1")` returns (-1, -1, -1) | only hex digits are accepted, so every component is in [0,255] | high; not executed | Colors.ColorAsWrittenNegative | Colors.Color |
| t2i.py:76-83 | `color_type` repeats the hex reading with `int(hex_str, base=16)`, which accepts a leading sign, and returns the two-digit value unmasked | `color_type("#-1")` returns (-1, -1, -1) | only hex digits are accepted, so every component is in [0,255] | high; not executed | Colors.ColorTypeAsWrittenNegative | Colors.ColorType |

=== FILE: cli.dfy ===
/** The two string rewrites of the command line front end: the escape
    rewrite applied to each text argument (t2i.py:168-172) and the output
    file name derived from the text (t2i.py:174-176, and the variant in
    `generate_and_save_text_image` of text2image.py:386-388). */
module Cli {
  import opened Text
  import opened Sanitize

  /** `re.sub(r"\\([\\n])", ...)`: scanning left to right without overlap,
      a backslash followed by 'n' becomes a newline and a doubled backslash
      a single one; every other character, a lone backslash included, is
      copied. */
  function Unescape(s: string): (r: string)
    ensures |r| <= |s|
    ensures '\\' !in s ==> r == s
  {
    if |s| >= 2 && s[0] == '\\' && s[1] == 'n' then "\n" + Unescape(s[2..])
    else if |s| >= 2 && s[0] == '\\' && s[1] == '\\' then "\\" + Unescape(s[2..])
    else if s == [] then []
    else [s[0]] + Unescape(s[1..])
  }

  /** The inverse spelling: what to type so that `Unescape` produces `t`. */
  function Escape(t: string): (s: string)
    ensures '\n' !in s
    ensures |s| >= |t|
  {
    if t == [] then []
    else (if t[0] == '\n' then "\\n" else if t[0] == '\\' then "\\\\" else [t[0]]) + Escape(t[1..])
  }

  /** Every text, newlines and backslashes included, can be typed: the
      escape rewrite undoes `Escape`. */
  lemma {:induction false} UnescapeEscape(t: string)
    ensures Unescape(Escape(t)) == t
  {
    if t != [] {
      UnescapeEscape(t[1..]);
      var s := Escape(t);
      var rest := Escape(t[1..]);
      if t[0] == '\n' || t[0] == '\\' {
        assert s[2..] == rest;
      } else {
        assert s[1..] == rest;
        assert s[0] == t[0];
      }
    }
  }

  /** A backslash at the very end of the text, as in "C:\\", starts no
      match and is kept. */
  lemma {:induction false} FinalBackslashKept(s: string)
    requires '\\' !in s
    ensures Unescape(s + "\\") == s + "\\"
  {
    var t := s + "\\";
    if s == [] {
      assert t == "\\";
      UnescapePlain(t);
    } else {
      assert t[0] == s[0] && t[1..] == s[1..] + "\\";
      UnescapePlain(t);
      FinalBackslashKept(s[1..]);
      assert [s[0]] + (s[1..] + "\\") == t;
    }
  }

  /** The two rewrites, whatever follows them: a backslash and 'n' become a
      newline, and a doubled backslash becomes one backslash. */
  lemma UnescapeMatch(rest: string)
    ensures Unescape("\\n" + rest) == "\n" + Unescape(rest)
    ensures Unescape("\\\\" + rest) == "\\" + Unescape(rest)
  {
    assert ("\\n" + rest)[2..] == rest;
    assert ("\\\\" + rest)[2..] == rest;
  }

  /** A backslash before any character other than 'n' or a backslash is kept
      together with that character. */
  lemma LoneBackslashKept(c: char, rest: string)
    requires c != 'n' && c != '\\'
    ensures Unescape(['\\', c] + rest) == ['\\', c] + Unescape(rest)
  {
    var s := ['\\', c] + rest;
    var t := [c] + rest;
    assert s[0] == '\\' && s[1] == c && s[1..] == t;
    assert t[0] == c && t[1..] == rest;
    UnescapePlain(s);
    UnescapePlain(t);
    var u := Unescape(rest);
    assert Unescape(s) == ['\\'] + ([c] + u);
    ConsTwo('\\', c, u);
  }

  lemma ConsTwo(a: char, b: char, u: string)
    ensures [a] + ([b] + u) == [a, b] + u
  {
  }

  /** A character other than a backslash, or a backslash not starting a
      match, is copied. */
  lemma UnescapePlain(s: string)
    requires s != [] && (s[0] != '\\' || |s| == 1 || (s[1] != 'n' && s[1] != '\\'))
    ensures Unescape(s) == [s[0]] + Unescape(s[1..])
  {
  }

  /** Matches do not overlap: in "\\\\n" the doubled backslash is consumed
      first, leaving a backslash followed by a plain 'n', not a newline. */
  lemma EscapedBackslashBeforeN()
    ensures Unescape("\\\\n") == "\\n"
  {
    assert "\\\\n"[2..] == "n";
    assert "n"[1..] == [];
  }

  /** The file name the command line writes `text` to: the sanitised text
      without leading or trailing dots, with ".png" appended unless already
      there. */
  function OutputFilename(text: string): (r: string)
    ensures EndsWith(r, ".png")
    ensures AllSafe(r)
    ensures r == ".png" || r[0] != '.'
    ensures var clean := SanitizeFilename(text);
            clean == [] || (clean[0] != '.' && clean[|clean| - 1] != '.') ==>
              r == (if EndsWith(clean, ".png") then clean else clean + ".png")
  {
    var clean := SanitizeFilename(text);
    StripKeepsSafe(clean, '.');
    StripNoop(clean, '.');
    WithPng(Strip(clean, '.'))
  }

  /** The name with ".png" appended unless it already ends so. Appending
      keeps a safe name safe, and the first character is the name's own
      unless the name is empty. */
  function WithPng(name: string): (r: string)
    ensures EndsWith(r, ".png")
    ensures EndsWith(name, ".png") ==> r == name
    ensures !EndsWith(name, ".png") ==> r == name + ".png"
    ensures AllSafe(name) ==> AllSafe(r)
    ensures name == [] ==> r == ".png"
    ensures name != [] ==> r[0] == name[0]
  {
    if EndsWith(name, ".png") then name
    else
      var r := name + ".png";
      assert r[|r| - 4..] == ".png";
      assert forall i :: |name| <= i < |r| ==> r[i] == ".png"[i - |name|];
      r
  }

  /** Stripping a character off the ends keeps a safe name safe. */
  lemma StripKeepsSafe(s: string, c: char)
    requires AllSafe(s)
    ensures AllSafe(Strip(s, c))
  {
    StripCuts(s, c);
    var lead := StripLeading(s, c);
    var r := StripTrailing(lead, c);
    var i := |s| - |lead|;
    assert Strip(s, c) == r && StripCut(s, c, r, i);
    forall k | 0 <= k < |r|
      ensures IsSafe(r[k])
    {
      assert r[k] == s[i + k];
    }
  }

  /** A text that already names a safe, dot-free-at-the-ends ".png" file
      is used as it is. */
  lemma OutputFilenameKeepsPng(text: string)
    requires AllSafe(text) && EndsWith(text, ".png") && text[0] != '.'
    ensures OutputFilename(text) == text
  {
  }

  /** Feeding the chosen file name back in gives the same name, except for
      ".png" itself (see `DotsName`). */
  lemma OutputFilenameStable(text: string)
    ensures var r := OutputFilename(text);
            r != ".png" ==> OutputFilename(r) == r
  {
    var r := OutputFilename(text);
    if r != ".png" {
      StripNoop(r, '.');
    }
  }

  /** A text made only of dots, the empty text included, leads to ".png",
      the one name that `OutputFilenameStable` leaves out: fed back in, its
      leading dot is stripped (`LeadingDotDropped` with the rest "png"). */
  lemma DotsName(text: string)
    requires forall i :: 0 <= i < |text| ==> text[i] == '.'
    ensures OutputFilename(text) == ".png"
  {
    assert AllSafe(text) by {
      forall i | 0 <= i < |text| ensures IsSafe(text[i]) { assert text[i] == '.'; }
    }
    StripAll(text, '.');
    assert Strip(text, '.') == [];
    assert [] + ".png" == ".png";
  }

  /** Dots around a name are stripped on both sides: the name of
      "..abc." is "abc.png". */
  lemma DotsAround(a: string, w: string, b: string)
    requires forall i :: 0 <= i < |a| ==> a[i] == '.'
    requires forall i :: 0 <= i < |b| ==> b[i] == '.'
    requires AllSafe(w) && w != [] && w[0] != '.' && w[|w| - 1] != '.'
    ensures OutputFilename(a + w + b) == WithPng(w)
  {
    var s := a + w + b;
    assert AllSafe(s) by {
      forall i | 0 <= i < |s| ensures IsSafe(s[i]) {
        if i < |a| { assert s[i] == a[i]; }
        else if i < |a| + |w| { assert s[i] == w[i - |a|]; }
        else { assert s[i] == b[i - |a| - |w|]; }
      }
    }
    assert s == a + (w + b);
    StripLeadingPrefix(a, w + b, '.');
    StripTrailingSuffix(w, b, '.');
    assert Strip(s, '.') == w;
  }

  /** A safe name behind one dot loses the dot, and ".png" is appended
      unless the rest already ends with it. */
  lemma LeadingDotDropped(rest: string)
    requires AllSafe(rest) && rest != [] && rest[0] != '.' && rest[|rest| - 1] != '.'
    requires !EndsWith(rest, ".png")
    ensures OutputFilename("." + rest) == rest + ".png"
  {
    DotsAround(".", rest, "");
    assert "." + rest + "" == "." + rest;
  }

  /** The name depends on the text only through its sanitised form, so
      "Hello, world." is named as "Hello world." is: "Hello world.png". */
  lemma OutputFilenameSanitised(text: string)
    ensures OutputFilename(text) == OutputFilename(SanitizeFilename(text))
  {
    SanitizeIdempotent(text);
  }

  /** The file name `generate_and_save_text_image` picks when none is given:
      no stripping of dots. */
  function DefaultFilename(text: string): (r: string)
    ensures EndsWith(r, ".png")
    ensures AllSafe(r)
    ensures EndsWith(SanitizeFilename(text), ".png") ==> r == SanitizeFilename(text)
    ensures !EndsWith(SanitizeFilename(text), ".png") ==> r == SanitizeFilename(text) + ".png"
  {
    WithPng(SanitizeFilename(text))
  }

  /** The default file name is a fixed point: saved again without a name,
      an image keeps the file name it was saved under. */
  lemma DefaultFilenameStable(text: string)
    ensures DefaultFilename(DefaultFilename(text)) == DefaultFilename(text)
  {
  }
}

=== FILE: colors.dfy ===
/** Colour strings: `color` of text2image.py and its CLI twin `color_type`
    of t2i.py. A colour is "transparent", a hex spelling after '#' or "0x"
    with 1, 2, 3 or 6 digits, or three comma-separated decimal components
    in [0,255]. */
module Colors {
  import opened Types
  import opened Text

  /** Multiplying a nibble by 0x11 repeats it: 0xL becomes 0xLL. */
  const Repeat: int := 0x11

  /** The hex digit string as Python's `int(hex, 16)` reads it. The code
      as written lets a leading sign through (`allowSign`); the corrected
      reading accepts hex digits only. */
  function HexInt(hex: string, allowSign: bool): (r: Result<int>)
    ensures !allowSign ==> (r.Ok? <==> |hex| > 0 && AllDigits(hex, 16))
    ensures !allowSign && r.Ok? ==> r.value == DigitsValue(hex, 16)
  {
    if allowSign then ParseSigned(hex, 16)
    else
      match ParseDigits(hex, 16)
      case Ok(v) => Ok(v)
      case Err(e) => Err(e)
  }

  /** The digit-count dispatch of lines 60-80: the length decides the
      spelling before any digit is read. `(v & 0xF00) >> 8` is written
      `(v / 0x100) % 0x10`, which agrees with Python for negative `v` too,
      since both floor. */
  function HexColorWith(hex: string, allowSign: bool): (r: Result<Rgb>)
    ensures |hex| != 1 && |hex| != 2 && |hex| != 3 && |hex| != 6 ==> r == Err(BadHexLength)
  {
    if |hex| == 1 then
      var l :- HexInt(hex, allowSign);
      Ok(Rgb(l * Repeat, l * Repeat, l * Repeat))
    else if |hex| == 2 then
      var ll :- HexInt(hex, allowSign);
      Ok(Rgb(ll, ll, ll))
    else if |hex| == 3 then
      var rgb :- HexInt(hex, allowSign);
      Ok(Rgb((rgb / 0x100) % 0x10 * Repeat, (rgb / 0x10) % 0x10 * Repeat, rgb % 0x10 * Repeat))
    else if |hex| == 6 then
      var rrggbb :- HexInt(hex, allowSign);
      Ok(Rgb((rrggbb / 0x10000) % 0x100, (rrggbb / 0x100) % 0x100, rrggbb % 0x100))
    else
      Err(BadHexLength)
  }

  /** The byte spelled by two hex digits, high digit first. */
  function HexByte(hi: char, lo: char): (b: nat)
    requires IsHexDigit(hi) && IsHexDigit(lo)
    ensures b < 256
  {
    HexDigitValue(hi) * 16 + HexDigitValue(lo)
  }

  lemma HexValue2(s: string)
    requires |s| == 2 && AllDigits(s, 16)
    ensures DigitsValue(s, 16) == HexByte(s[0], s[1])
  {
    var p1 := s[..1];
    assert p1[..0] == [] && p1[0] == s[0] && s[..1] == p1;
    assert DigitsValue(p1, 16) == HexDigitValue(s[0]);
  }

  lemma HexValue3(s: string)
    requires |s| == 3 && AllDigits(s, 16)
    ensures DigitsValue(s, 16) == HexDigitValue(s[0]) * 0x100 + HexDigitValue(s[1]) * 0x10 + HexDigitValue(s[2])
  {
    HexValue2(s[..2]);
  }

  lemma HexValue6(s: string)
    requires |s| == 6 && AllDigits(s, 16)
    ensures DigitsValue(s, 16) == HexByte(s[0], s[1]) * 0x10000 + HexByte(s[2], s[3]) * 0x100 + HexByte(s[4], s[5])
  {
    var p2, p3, p4, p5 := s[..2], s[..3], s[..4], s[..5];
    HexValue2(p2);
    assert p3[..2] == p2 && p4[..3] == p3 && p5[..4] == p4 && s[..5] == p5;
    assert DigitsValue(p3, 16) == HexByte(s[0], s[1]) * 0x10 + HexDigitValue(s[2]);
    assert DigitsValue(p4, 16) == HexByte(s[0], s[1]) * 0x100 + HexByte(s[2], s[3]);
    assert DigitsValue(p5, 16) == HexByte(s[0], s[1]) * 0x1000 + HexByte(s[2], s[3]) * 0x10 + HexDigitValue(s[4]);
  }

  /** What the masks of lines 66-79 read out of plain hex digits. */
  lemma HexColorDigits(hex: string)
    ensures HexColorWith(hex, false).Ok? <==> (|hex| == 1 || |hex| == 2 || |hex| == 3 || |hex| == 6) && AllDigits(hex, 16)
    ensures HexColorWith(hex, false).Ok? ==> InByteRange(HexColorWith(hex, false).value)
    ensures HexColorWith(hex, false).Ok? && |hex| == 1 ==> var l := HexDigitValue(hex[0]) * Repeat; HexColorWith(hex, false).value == Rgb(l, l, l)
    ensures HexColorWith(hex, false).Ok? && |hex| == 2 ==> var ll := HexByte(hex[0], hex[1]); HexColorWith(hex, false).value == Rgb(ll, ll, ll)
    ensures HexColorWith(hex, false).Ok? && |hex| == 3 ==>
              HexColorWith(hex, false).value == Rgb(HexDigitValue(hex[0]) * Repeat, HexDigitValue(hex[1]) * Repeat, HexDigitValue(hex[2]) * Repeat)
    ensures HexColorWith(hex, false).Ok? && |hex| == 6 ==>
              HexColorWith(hex, false).value == Rgb(HexByte(hex[0], hex[1]), HexByte(hex[2], hex[3]), HexByte(hex[4], hex[5]))
  {
    if |hex| in {1, 2, 3, 6} && AllDigits(hex, 16) {
      if |hex| == 1 {
        HexColor1(hex);
      } else if |hex| == 2 {
        HexColor2(hex);
      } else if |hex| == 3 {
        HexColor3(hex);
      } else {
        HexColor6(hex);
      }
    }
  }

  lemma HexColor1(hex: string)
    requires |hex| == 1 && AllDigits(hex, 16)
    ensures var l := HexDigitValue(hex[0]) * Repeat; HexColorWith(hex, false) == Ok(Rgb(l, l, l))
  {
    assert hex[..0] == [];
    assert DigitsValue(hex, 16) == HexDigitValue(hex[0]);
  }

  lemma HexColor2(hex: string)
    requires |hex| == 2 && AllDigits(hex, 16)
    ensures var ll := HexByte(hex[0], hex[1]); HexColorWith(hex, false) == Ok(Rgb(ll, ll, ll))
  {
    HexValue2(hex);
  }

  lemma HexColor3(hex: string)
    requires |hex| == 3 && AllDigits(hex, 16)
    ensures HexColorWith(hex, false)
            == Ok(Rgb(HexDigitValue(hex[0]) * Repeat, HexDigitValue(hex[1]) * Repeat, HexDigitValue(hex[2]) * Repeat))
  {
    HexValue3(hex);
    SplitNibbles(HexDigitValue(hex[0]), HexDigitValue(hex[1]), HexDigitValue(hex[2]));
  }

  lemma HexColor6(hex: string)
    requires |hex| == 6 && AllDigits(hex, 16)
    ensures HexColorWith(hex, false) == Ok(Rgb(HexByte(hex[0], hex[1]), HexByte(hex[2], hex[3]), HexByte(hex[4], hex[5])))
  {
    HexValue6(hex);
    SplitBytes(HexByte(hex[0], hex[1]), HexByte(hex[2], hex[3]), HexByte(hex[4], hex[5]));
  }

  /** Three hex digits are read back by the shifts and masks of lines 69-71. */
  lemma SplitNibbles(d0: int, d1: int, d2: int)
    requires 0 <= d0 < 0x10 && 0 <= d1 < 0x10 && 0 <= d2 < 0x10
    ensures var v := d0 * 0x100 + d1 * 0x10 + d2;
            (v / 0x100) % 0x10 == d0 && (v / 0x10) % 0x10 == d1 && v % 0x10 == d2
  {
    var v := d0 * 0x100 + d1 * 0x10 + d2;
    DivModOf(v, 0x100, d0, d1 * 0x10 + d2);
    DivModOf(d0, 0x10, 0, d0);
    DivModOf(v, 0x10, d0 * 0x10 + d1, d2);
    DivModOf(d0 * 0x10 + d1, 0x10, d0, d1);
  }

  /** Three bytes are read back by the shifts and masks of lines 76-78. */
  lemma SplitBytes(d0: int, d1: int, d2: int)
    requires 0 <= d0 < 0x100 && 0 <= d1 < 0x100 && 0 <= d2 < 0x100
    ensures var v := d0 * 0x10000 + d1 * 0x100 + d2;
            (v / 0x10000) % 0x100 == d0 && (v / 0x100) % 0x100 == d1 && v % 0x100 == d2
  {
    var v := d0 * 0x10000 + d1 * 0x100 + d2;
    DivModOf(v, 0x10000, d0, d1 * 0x100 + d2);
    DivModOf(d0, 0x100, 0, d0);
    DivModOf(v, 0x100, d0 * 0x100 + d1, d2);
    DivModOf(d0 * 0x100 + d1, 0x100, d0, d1);
  }

  /** Division by `k` of `a * k + r` with `0 <= r < k` gives `a`, remainder `r`. */
  lemma DivModOf(v: int, k: int, a: int, r: int)
    requires k > 0 && 0 <= r < k && v == a * k + r
    ensures v / k == a && v % k == r
  {
    var q, s := v / k, v % k;
    assert (q - a) * k == r - s by {
      assert v == q * k + s;
      assert (q - a) * k == q * k - a * k;
    }
    if q > a {
      MulAtLeast(q - a, k);
    } else if q < a {
      MulAtLeast(a - q, k);
    }
  }

  /** A positive multiple of `k` is at least `k`. */
  lemma MulAtLeast(x: int, k: int)
    requires x >= 1 && k > 0
    ensures x * k >= k
  {
  }

  /** The corrected hex spelling: digits only, so every component is a byte,
      and each component is read off its own digits. */
  function HexColor(hex: string): (r: Result<Rgb>)
    ensures r.Ok? <==> (|hex| == 1 || |hex| == 2 || |hex| == 3 || |hex| == 6) && AllDigits(hex, 16)
    ensures r.Ok? ==> InByteRange(r.value)
    ensures r.Ok? && |hex| == 1 ==> var l := HexDigitValue(hex[0]) * Repeat; r.value == Rgb(l, l, l)
    ensures r.Ok? && |hex| == 2 ==> var ll := HexByte(hex[0], hex[1]); r.value == Rgb(ll, ll, ll)
    ensures r.Ok? && |hex| == 3 ==>
              r.value == Rgb(HexDigitValue(hex[0]) * Repeat, HexDigitValue(hex[1]) * Repeat, HexDigitValue(hex[2]) * Repeat)
    ensures r.Ok? && |hex| == 6 ==>
              r.value == Rgb(HexByte(hex[0], hex[1]), HexByte(hex[2], hex[3]), HexByte(hex[4], hex[5]))
  {
    HexColorDigits(hex);
    HexColorWith(hex, false)
  }

  /** The two lower-case hex digits of a byte, high digit first. */
  function HexPair(b: int): (s: string)
    requires 0 <= b < 256
    ensures |s| == 2 && AllDigits(s, 16) && HexByte(s[0], s[1]) == b
  {
    [HexDigitChar(b / 16), HexDigitChar(b % 16)]
  }

  /** The six-digit spelling "#rrggbb" of a colour. */
  function HexSpelling(c: Rgb): string
    requires InByteRange(c)
  {
    "#" + HexPair(c.r) + HexPair(c.g) + HexPair(c.b)
  }

  /** Every colour read back from its six-digit hex spelling. */
  lemma HexRoundTrip(c: Rgb)
    requires InByteRange(c)
    ensures Color(HexSpelling(c)) == Ok(Some(c))
  {
    var s := HexSpelling(c);
    var hex := HexPair(c.r) + HexPair(c.g) + HexPair(c.b);
    assert s[1..] == hex;
    assert s[0] == '#' && "#" <= s;
    forall i | 0 <= i < 6
      ensures IsHexDigit(hex[i]) && HexDigitValue(hex[i]) < 16
    {
    }
    HexColor6(hex);
    assert hex[0] == HexPair(c.r)[0] && hex[1] == HexPair(c.r)[1];
    assert hex[2] == HexPair(c.g)[0] && hex[3] == HexPair(c.g)[1];
    assert hex[4] == HexPair(c.b)[0] && hex[5] == HexPair(c.b)[1];
  }

  /** A decimal integer in [0,255]. */
  predicate IsByte(part: string) {
    ParseInt(part).Ok? && 0 <= ParseInt(part).value <= 255
  }

  /** Three comma-separated decimal integers, each in [0,255] (lines 82-88):
      every part is converted first, then the count is checked, then the range. */
  function TripleColor(s: string): (r: Result<Rgb>)
    ensures r.Ok? ==> InByteRange(r.value)
    ensures var parts := Split(s, ',');
            r.Ok? <==> |parts| == 3 && IsByte(parts[0]) && IsByte(parts[1]) && IsByte(parts[2])
    ensures var parts := Split(s, ',');
            r.Ok? ==> r.value == Rgb(ParseInt(parts[0]).value, ParseInt(parts[1]).value, ParseInt(parts[2]).value)
  {
    var parts := Split(s, ',');
    var comps :- TryMap(parts, ParseInt);
    assert |comps| == 3 ==> comps == [ParseInt(parts[0]).value, ParseInt(parts[1]).value, ParseInt(parts[2]).value];
    if |comps| != 3 then Err(NotATriple)
    else if !(0 <= comps[0] <= 255 && 0 <= comps[1] <= 255 && 0 <= comps[2] <= 255) then Err(ComponentOutOfRange)
    else Ok(Rgb(comps[0], comps[1], comps[2]))
  }

  /** The "R,G,B" spelling of a colour. */
  function TripleString(c: Rgb): string {
    IntToString(c.r) + "," + IntToString(c.g) + "," + IntToString(c.b)
  }

  /** Printing a colour as "R,G,B" and reading it back gives the colour
      exactly when its components are bytes, and the range error otherwise. */
  lemma TripleRoundTrip(c: Rgb)
    ensures InByteRange(c) ==> TripleColor(TripleString(c)) == Ok(c)
    ensures !InByteRange(c) ==> TripleColor(TripleString(c)) == Err(ComponentOutOfRange)
  {
    var parts := Split(TripleString(c), ',');
    TripleSplits(c);
    ParseIntOfString(c.r);
    ParseIntOfString(c.g);
    ParseIntOfString(c.b);
    ParseThree(IntToString(c.r), IntToString(c.g), IntToString(c.b), c.r, c.g, c.b);
  }

  lemma ParseThree(a: string, b: string, d: string, x: int, y: int, z: int)
    requires ParseInt(a) == Ok(x) && ParseInt(b) == Ok(y) && ParseInt(d) == Ok(z)
    ensures TryMap([a, b, d], ParseInt) == Ok([x, y, z])
  {
    assert [a, b, d][1..] == [b, d] && [b, d][1..] == [d] && [d][1..] == [];
    assert [z] + [] == [z] && [y] + [z] == [y, z] && [x] + [y, z] == [x, y, z];
    assert TryMap([d], ParseInt) == Ok([z]);
    assert TryMap([b, d], ParseInt) == Ok([y, z]);
  }

  lemma TripleSplits(c: Rgb)
    ensures Split(TripleString(c), ',') == [IntToString(c.r), IntToString(c.g), IntToString(c.b)]
  {
    var sr, sg, sb := IntToString(c.r), IntToString(c.g), IntToString(c.b);
    IntToStringEndsInDigit(c.r);
    IntToStringEndsInDigit(c.g);
    IntToStringEndsInDigit(c.b);
    SplitTriple(sr, ',', sg, sb);
    assert TripleString(c) == sr + [','] + sg + [','] + sb;
  }

  /** Everything but "transparent", `color` and `color_type` alike: the
      prefix picks hex or decimal. */
  function ParseRgbWith(s: string, allowSign: bool): (r: Result<Rgb>)
    ensures !allowSign ==> r == ParseRgb(s)
    ensures "#" <= s ==> r == HexColorWith(s[1..], allowSign)
    ensures !("#" <= s) && "0x" <= s ==> r == HexColorWith(s[2..], allowSign)
    ensures !("#" <= s) && !("0x" <= s) ==> r == TripleColor(s)
  {
    if "#" <= s then HexColorWith(s[1..], allowSign)
    else if "0x" <= s then HexColorWith(s[2..], allowSign)
    else TripleColor(s)
  }

  /** The corrected reading of a non-transparent colour. */
  function ParseRgb(s: string): (r: Result<Rgb>)
    ensures r.Ok? ==> InByteRange(r.value)
    ensures "#" <= s ==> r == HexColor(s[1..])
    ensures !("#" <= s) && "0x" <= s ==> r == HexColor(s[2..])
    ensures !("#" <= s) && !("0x" <= s) ==> r == TripleColor(s)
  {
    if "#" <= s then HexColor(s[1..])
    else if "0x" <= s then HexColor(s[2..])
    else TripleColor(s)
  }

  /** `color`: None for "transparent", otherwise the colour spelled by `s`. */
  function Color(s: string): (r: Result<Option<Rgb>>)
    ensures r == Ok(None) <==> s == "transparent"
    ensures r.Ok? && r.value.Some? ==> InByteRange(r.value.value)
  {
    if s == "transparent" then Ok(None)
    else
      var c :- ParseRgb(s);
      Ok(Some(c))
  }

  /** `color_type`: the same spellings as `color` without "transparent". */
  function ColorType(s: string): (r: Result<Rgb>)
    ensures r.Ok? ==> InByteRange(r.value)
  {
    ParseRgb(s)
  }

  /** `color_type` accepts exactly what `color` accepts except "transparent",
      which it refuses, and reads the same colour. */
  lemma ColorTypeMatchesColor(s: string)
    ensures s == "transparent" ==> ColorType(s).Err?
    ensures s != "transparent" ==> (ColorType(s).Ok? <==> Color(s).Ok?)
    ensures s != "transparent" && ColorType(s).Ok? ==> Color(s) == Ok(Some(ColorType(s).value))
  {
    if s == "transparent" {
      assert s[0] == 't';
      assert Split(s, ',') == [s] by { SplitNoSeparator(s, ','); }
      assert !IsDecimalDigit(s[0]);
    }
  }

  /** `color` as the code is written: Python's `int(hex, 16)` also reads a
      '+' or '-' sign, and the two-digit branch then returns the value
      unmasked. */
  function ColorAsWritten(s: string): (r: Result<Option<Rgb>>)
    ensures r == Ok(None) <==> s == "transparent"
  {
    if s == "transparent" then Ok(None)
    else
      var c :- ParseRgbWith(s, true);
      Ok(Some(c))
  }

  /** `color_type` as written (`ParseRgbWith` with the sign allowed) also
      reads "#-1" as a negative colour; the corrected `ColorType` refuses it. */
  lemma ColorTypeAsWrittenNegative()
    ensures ParseRgbWith("#-1", true) == Ok(Rgb(-1, -1, -1))
    ensures ColorType("#-1").Err?
  {
    ColorAsWrittenNegative();
  }

  /** "#-1" is accepted as written and yields a negative colour, while the
      corrected reading refuses it. */
  lemma ColorAsWrittenNegative()
    ensures ColorAsWritten("#-1") == Ok(Some(Rgb(-1, -1, -1)))
    ensures !InByteRange(Rgb(-1, -1, -1))
    ensures Color("#-1").Err?
  {
    var hex := "#-1"[1..];
    assert hex == "-1" && hex[1..] == "1";
    assert ParseDigits("1", 16) == Ok(1) by {
      assert "1"[..0] == [];
    }
    assert !IsHexDigit(hex[0]);
  }

  /** Wherever the corrected reading accepts a colour, the code as written
      reads the same colour: the two differ only on signed hex digits. */
  lemma ColorAgreesWithAsWritten(s: string)
    requires Color(s).Ok?
    ensures ColorAsWritten(s) == Color(s)
  {
    if s != "transparent" {
      var hex := if "#" <= s then s[1..] else s[2..];
      if "#" <= s || "0x" <= s {
        assert |hex| > 0 && IsHexDigit(hex[0]);
        assert ParseSigned(hex, 16) == ParseDigits(hex, 16);
      }
    }
  }
}

=== FILE: layout.dfy ===
/** The canvas layout engine of `generate_text_image` (text2image.py:246-346
    and the placements used at 357-361): from the size and descent of the
    rendered text and the geometric settings it computes the canvas size,
    the origin of the text layer and the origin of the shadow layer. Every
    step is a function of its own, composed in source order by
    `ComputeLayout`. */
module Layout {
  import opened Types

  type PosInt = n: int | n > 0 witness 1

  /** An aspect ratio `num / den` held exactly; the source's float. A value
      of at most zero (the default -1.0) switches fitting off. */
  datatype Ratio = Ratio(num: int, den: PosInt)

  /** The rendered text as the rasteriser reports it: its tight width and
      height and the distance from its bottom edge to the baseline. */
  datatype Metrics = Metrics(width: nat, height: nat, descent: int)

  /** Padding on each side of the text. */
  datatype Pads = Pads(left: int, right: int, top: int, bottom: int)

  /** A canvas size together with the current text origin. */
  datatype Frame = Frame(x: int, y: int, width: int, height: int)

  /** The settings of `generate_text_image` the layout reads. Only the
      presence of `shadowColor` matters here. */
  datatype Request = Request(
    text: string,
    metrics: Metrics,
    shadowColor: Option<Rgb>,
    shadowOffset: Vec2,
    padx: Vec2,
    pady: Vec2,
    padding: Option<Vec2>,
    aspectRatio: Option<Ratio>,
    minSize: Option<Vec2>,
    baselineAlign: string)

  /** The result: canvas size, text origin and shadow origin. */
  datatype Placement = Placement(width: int, height: int, text: Vec2, shadow: Vec2)

  function Max(a: int, b: int): int { if a >= b then a else b }
  function Min(a: int, b: int): int { if a <= b then a else b }
  function Abs(a: int): int { if a >= 0 then a else -a }

  /** Python's `int(a / b)`: the quotient truncated toward zero. */
  function TruncDiv(a: int, b: PosInt): (q: int)
    ensures 0 <= a ==> 0 <= q && q * b <= a < q * b + b
    ensures a < 0 ==> q <= 0 && a <= q * b < a + b
  {
    if a >= 0 then
      FloorDivBounds(a, b);
      a / b
    else
      FloorDivBounds(-a, b);
      NegTimes((-a) / b, b);
      -((-a) / b)
  }

  /** For `n >= 0`, the quotient `n / b` is the largest `k` with `k * b <= n`. */
  lemma FloorDivBounds(n: int, b: int)
    requires 0 <= n && 0 < b
    ensures 0 <= n / b && (n / b) * b <= n < (n / b) * b + b
  {
    var k, r := n / b, n % b;
    assert n == k * b + r && 0 <= r < b;
  }

  /** Negation commutes with multiplication. */
  lemma NegTimes(k: int, b: int)
    ensures (-k) * b == -(k * b)
  {
  }

  /** Lines 270-272: a `padding` pair overrides both `padx` and `pady`. */
  function EffectivePads(padx: Vec2, pady: Vec2, padding: Option<Vec2>): (r: Pads)
    ensures padding.Some? ==> r.left == r.right == padding.value.x && r.top == r.bottom == padding.value.y
    ensures padding.None? ==> r.left == padx.x && r.right == padx.y && r.top == pady.x && r.bottom == pady.y
  {
    match padding
    case Some(p) => Pads(p.x, p.x, p.y, p.y)
    case None => Pads(padx.x, padx.y, pady.x, pady.y)
  }

  /** Lines 266-268: without a shadow the offset is forced to (0,0). */
  function EffectiveOffset(shadowColor: Option<Rgb>, offset: Vec2): (r: Vec2)
    ensures shadowColor.None? ==> r == Vec2(0, 0)
    ensures shadowColor.Some? ==> r == offset
  {
    if shadowColor.Some? then offset else Vec2(0, 0)
  }

  /** Lines 274-289: the text plus its padding, widened on the side the
      shadow is cast to so that the shadow fits as well. */
  function ShadowFrame(m: Metrics, pads: Pads, hasShadow: bool, off: Vec2): (f: Frame)
    requires !hasShadow ==> off == Vec2(0, 0)
    ensures f.width == m.width + pads.left + pads.right + Abs(off.x)
    ensures f.height == m.height + pads.top + pads.bottom + Abs(off.y)
    ensures f.x == pads.left + Max(0, -off.x) && f.y == pads.top + Max(0, -off.y)
    ensures f.x >= pads.left && f.x + off.x >= pads.left
    ensures f.y >= pads.top && f.y + off.y >= pads.top
    ensures f.x + m.width + pads.right + Max(0, off.x) == f.width
    ensures f.y + m.height + pads.bottom + Max(0, off.y) == f.height
  {
    var base := Frame(pads.left, pads.top, m.width + pads.left + pads.right, m.height + pads.top + pads.bottom);
    if !hasShadow then base
    else
      var horizontal :=
        if off.x >= 0 then base.(width := base.width + off.x)
        else base.(x := base.x - off.x, width := base.width - off.x);
      if off.y >= 0 then horizontal.(height := horizontal.height + off.y)
      else horizontal.(y := horizontal.y - off.y, height := horizontal.height - off.y)
  }

  /** Lines 291-298: grow each dimension to the minimum size, keeping the
      content centred (any odd pixel goes to the right or bottom). */
  function ApplyMinSize(f: Frame, minSize: Option<Vec2>): (r: Frame)
    ensures minSize.None? ==> r == f
    ensures minSize.Some? ==> r.width == Max(f.width, minSize.value.x) && r.height == Max(f.height, minSize.value.y)
    ensures r.width >= f.width && r.height >= f.height
    ensures r.x - f.x == (r.width - f.width) / 2 && r.y - f.y == (r.height - f.height) / 2
    ensures r.x >= f.x && r.y >= f.y
  {
    match minSize
    case None => f
    case Some(size) =>
      var horizontal :=
        if f.width < size.x then f.(x := f.x + (size.x - f.width) / 2, width := size.x) else f;
      if horizontal.height <= size.y then horizontal.(y := horizontal.y + (size.y - horizontal.height) / 2, height := size.y)
      else horizontal
  }

  /** The minimum-size step with `<` for the height test as well, as it is
      for the width. */
  function ApplyMinSizeStrict(f: Frame, minSize: Option<Vec2>): Frame {
    match minSize
    case None => f
    case Some(size) =>
      var horizontal :=
        if f.width < size.x then f.(x := f.x + (size.x - f.width) / 2, width := size.x) else f;
      if horizontal.height < size.y then horizontal.(y := horizontal.y + (size.y - horizontal.height) / 2, height := size.y)
      else horizontal
  }

  /** The asymmetric `<=` of line 296 is unobservable: at equality the shift
      is zero and the height is unchanged. */
  lemma MinSizeComparisonIrrelevant(f: Frame, minSize: Option<Vec2>)
    ensures ApplyMinSize(f, minSize) == ApplyMinSizeStrict(f, minSize)
  {
  }

  /** Line 299-300: with no ratio given and a non-zero minimum height, the
      ratio of the minimum size is used. */
  function FallbackRatio(ratio: Option<Ratio>, minSize: Option<Vec2>): (r: Option<Ratio>)
    ensures ratio.Some? ==> r == ratio
    ensures minSize.None? ==> r == ratio
    ensures ratio.None? && minSize.Some? && minSize.value.y != 0 ==>
              r.Some? && r.value.num * minSize.value.y == minSize.value.x * r.value.den
    ensures ratio.None? && minSize.Some? && minSize.value.y == 0 ==> r.None?
  {
    match (ratio, minSize)
    case (None, Some(size)) =>
      if size.y == 0 then None
      else if size.y > 0 then Some(Ratio(size.x, size.y))
      else Some(Ratio(-size.x, -size.y))
    case _ => ratio
  }

  /** Aspect fitting runs only for a ratio greater than zero. */
  predicate Fits(ratio: Option<Ratio>) {
    ratio.Some? && ratio.value.num > 0
  }

  /** Line 303: the width the ratio asks for at the current height, never
      less than the current width. */
  function DesiredWidth(f: Frame, p: PosInt, q: PosInt): (w: int)
    ensures w >= f.width
    ensures f.height >= 0 ==> f.height * p < (w + 1) * q
    ensures f.height >= 0 && w > f.width ==> w * q <= f.height * p
  {
    var t := TruncDiv(f.height * p, q);
    assert f.height >= 0 ==> f.height * p < (t + 1) * q;
    Max(t, f.width)
  }

  /** Line 304: the height the ratio asks for at the current width, never
      less than the current height. */
  function DesiredHeight(f: Frame, p: PosInt, q: PosInt): (h: int)
    ensures h >= f.height
    ensures f.width >= 0 ==> f.width * q < (h + 1) * p
    ensures f.width >= 0 && h > f.height ==> h * p <= f.width * q
  {
    var t := TruncDiv(f.width * q, p);
    assert f.width >= 0 ==> f.width * q < (t + 1) * p;
    Max(t, f.height)
  }

  /** Lines 302-320: the dimension whose desired size is larger in raw
      pixels is grown to it and the other is recomputed from the ratio; both
      moves are centred. The recomputed dimension may shrink. */
  function FitAspect(f: Frame, ratio: Option<Ratio>): (r: Frame)
    ensures !Fits(ratio) ==> r == f
    ensures r.width >= f.width || r.height >= f.height
  {
    if !Fits(ratio) then f
    else
      var p: PosInt := ratio.value.num;
      var q := ratio.value.den;
      var dw := DesiredWidth(f, p, q);
      var dh := DesiredHeight(f, p, q);
      if dw > dh then
        var h := TruncDiv(dw * q, p);
        Frame(f.x + (dw - f.width) / 2, f.y + (h - f.height) / 2, dw, h)
      else
        var w := TruncDiv(dh * p, q);
        Frame(f.x + (w - f.width) / 2, f.y + (dh - f.height) / 2, w, dh)
  }

  /** Exactly one branch runs, chosen by comparing the desired width and
      height as raw pixel counts; the chosen dimension becomes its desired
      size and the other is recomputed from the ratio, each move centred. */
  lemma FitAspectBranches(f: Frame, ratio: Option<Ratio>)
    requires Fits(ratio)
    ensures var r := FitAspect(f, ratio);
            var p: PosInt := ratio.value.num;
            var q := ratio.value.den;
            var dw, dh := DesiredWidth(f, p, q), DesiredHeight(f, p, q);
            && (dw > dh ==> && r.width == dw && r.x - f.x == (dw - f.width) / 2
                            && r.height == TruncDiv(dw * q, p) && r.y - f.y == (r.height - f.height) / 2)
            && (dw <= dh ==> && r.height == dh && r.y - f.y == (dh - f.height) / 2
                             && r.width == TruncDiv(dh * p, q) && r.x - f.x == (r.width - f.width) / 2)
  {
  }

  /** On a canvas of non-negative size the fitted canvas has the requested
      ratio `p/q` up to the truncation of the recomputed dimension: its
      height is within one pixel below `width * q / p`, or its width within
      one pixel below `height * p / q`. */
  lemma FitAspectKeepsRatio(f: Frame, ratio: Option<Ratio>)
    requires Fits(ratio) && f.width >= 0 && f.height >= 0
    ensures var r := FitAspect(f, ratio);
            RatioWithinOne(r.width, r.height, ratio.value.num, ratio.value.den)
  {
    var r := FitAspect(f, ratio);
    var p: PosInt := ratio.value.num;
    var q := ratio.value.den;
    var dw, dh := DesiredWidth(f, p, q), DesiredHeight(f, p, q);
    if dw > dh {
      var h := TruncDiv(dw * q, p);
      assert r.width == dw && r.height == h;
      RecomputedWithinOne(dw, q, p);
      assert 0 <= dw * q - h * p < p;
    } else {
      var w := TruncDiv(dh * p, q);
      assert r.height == dh && r.width == w;
      RecomputedWithinOne(dh, p, q);
      assert 0 <= dh * p - w * q < q;
    }
  }

  /** A `w` by `h` canvas has the ratio `p/q` up to one pixel of
      truncation in the recomputed dimension. */
  predicate RatioWithinOne(w: int, h: int, p: int, q: int) {
    -q < w * q - h * p < p
  }

  /** A dimension recomputed as `int(d * a / b)` from a non-negative `d`
      lies within one unit below the exact value. */
  lemma RecomputedWithinOne(d: int, a: PosInt, b: PosInt)
    requires d >= 0
    ensures var e := TruncDiv(d * a, b); 0 <= d * a - e * b < b
  {
    var n := d * a;
    assert n >= 0;
  }

  /** A 3x3 canvas fitted to 3/2 becomes 4x2: the height shrinks and the
      text origin moves up by one pixel. */
  lemma FitAspectMayShrink()
    ensures FitAspect(Frame(0, 0, 3, 3), Some(Ratio(3, 2))) == Frame(0, -1, 4, 2)
  {
    var f := Frame(0, 0, 3, 3);
    FitAspectBranches(f, Some(Ratio(3, 2)));
    assert TruncDiv(9, 2) == 4 && TruncDiv(6, 3) == 2 && TruncDiv(8, 3) == 2;
    assert DesiredWidth(f, 3, 2) == 4 && DesiredHeight(f, 3, 2) == 3;
  }

  /** The modes of `BaselineAlignment`. */
  predicate KnownBaselineMode(mode: string) {
    mode == "none" || mode == "broad" || mode == "perfect"
  }

  /** Lines 326-332: the vertical nudge of each baseline mode. */
  function BaselineOffset(mode: string, descent: int, textHeight: nat): (r: Result<int>)
    ensures r.Err? <==> !KnownBaselineMode(mode)
    ensures r.Err? ==> r.error == BadBaselineAlign
    ensures mode == "none" ==> r == Ok(0)
    ensures mode == "broad" ==> 2 * r.value <= descent < 2 * r.value + 2
    ensures mode == "perfect" ==> var lift := descent - r.value; 2 * lift <= textHeight < 2 * lift + 2
  {
    if mode == "broad" then Ok(descent / 2)
    else if mode == "perfect" then Ok(descent - textHeight / 2)
    else if mode != "none" then Err(BadBaselineAlign)
    else Ok(0)
  }

  /** Line 341: the smallest origin that keeps text and shadow below the top padding. */
  function LowerBound(pads: Pads, dy: int): (r: int)
    ensures r >= pads.top && r + dy >= pads.top
    ensures r == pads.top || r + dy == pads.top
  {
    pads.top - Min(0, dy)
  }

  /** Line 342: the largest origin that keeps text and shadow above the bottom padding. */
  function UpperBound(height: int, pads: Pads, textHeight: nat, dy: int): (r: int)
    ensures r + textHeight + pads.bottom <= height && r + dy + textHeight + pads.bottom <= height
    ensures r + textHeight + pads.bottom == height || r + dy + textHeight + pads.bottom == height
  {
    height - (pads.bottom + textHeight + Max(0, dy))
  }

  /** Lines 325-346: single-line text is nudged toward its baseline and
      clamped to the padded region; multi-line text and mode "none" are
      left alone, and an unknown mode is an error for single-line text only. */
  function AlignBaseline(f: Frame, multiline: bool, mode: string, descent: int, textHeight: nat, pads: Pads, dy: int)
    : (r: Result<Frame>)
    ensures multiline || mode == "none" ==> r == Ok(f)
    ensures r.Err? <==> !multiline && !KnownBaselineMode(mode)
    ensures r.Ok? ==> r.value.x == f.x && r.value.width == f.width && r.value.height == f.height
    ensures r.Ok? && !multiline && mode != "none" ==>
              var lower, upper := LowerBound(pads, dy), UpperBound(f.height, pads, textHeight, dy);
              && r.value.y <= upper
              && (lower <= upper ==> lower <= r.value.y)
              && (lower <= f.y + BaselineOffset(mode, descent, textHeight).value <= upper ==>
                    r.value.y == f.y + BaselineOffset(mode, descent, textHeight).value)
    ensures r.Ok? && !multiline && mode != "none" ==>
              var lower, upper := LowerBound(pads, dy), UpperBound(f.height, pads, textHeight, dy);
              var ny := f.y + BaselineOffset(mode, descent, textHeight).value;
              && (ny < lower <= upper ==> r.value.y == lower)
              && (ny > upper || lower > upper ==> r.value.y == upper)
  {
    if multiline then Ok(f)
    else
      var offset :- BaselineOffset(mode, descent, textHeight);
      if mode == "none" then Ok(f)
      else
        var lower := LowerBound(pads, dy);
        var upper := UpperBound(f.height, pads, textHeight, dy);
        Ok(f.(y := Min(Max(f.y + offset, lower), upper)))
  }

  /** Mode "perfect" puts the baseline, `descent` above the bottom of the
      text, at the centre of the unaligned text box (half the text height
      below its top, rounded up), as long
      as the nudged origin lies within the bounds. */
  lemma PerfectCentresBaseline(f: Frame, descent: int, textHeight: nat, pads: Pads, dy: int)
    requires var ny := f.y + BaselineOffset("perfect", descent, textHeight).value;
             LowerBound(pads, dy) <= ny <= UpperBound(f.height, pads, textHeight, dy)
    ensures var r := AlignBaseline(f, false, "perfect", descent, textHeight, pads, dy);
            r.Ok? && r.value.y + textHeight - descent == f.y + (textHeight + 1) / 2
  {
  }

  /** Lines 274-320: the canvas and text origin before baseline alignment.
      Without aspect fitting the canvas holds the padded text and its
      shadow and meets the minimum size, and the text origin lies between
      the clamping bounds of lines 341-342, so that those bounds never cross. */
  function Canvas(m: Metrics, pads: Pads, hasShadow: bool, off: Vec2, minSize: Option<Vec2>, ratio: Option<Ratio>): (r: Frame)
    requires !hasShadow ==> off == Vec2(0, 0)
    ensures !Fits(ratio) ==>
              && r.width >= m.width + pads.left + pads.right + Abs(off.x)
              && r.height >= m.height + pads.top + pads.bottom + Abs(off.y)
              && (minSize.Some? ==> r.width >= minSize.value.x && r.height >= minSize.value.y)
              && r.x >= pads.left && r.x + off.x >= pads.left
              && r.x + m.width + pads.right + Max(0, off.x) <= r.width
              && LowerBound(pads, off.y) <= r.y <= UpperBound(r.height, pads, m.height, off.y)
  {
    var extended := ShadowFrame(m, pads, hasShadow, off);
    var sized := ApplyMinSize(extended, minSize);
    assert sized.x - extended.x <= sized.width - extended.width by {
      var g := sized.width - extended.width;
      assert sized.x - extended.x == g / 2 && 0 <= g / 2 <= g;
    }
    assert sized.y - extended.y <= sized.height - extended.height by {
      var g := sized.height - extended.height;
      assert sized.y - extended.y == g / 2 && 0 <= g / 2 <= g;
    }
    FitAspect(sized, ratio)
  }

  /** The whole layout of `generate_text_image`. */
  function ComputeLayout(req: Request): (r: Result<Placement>)
    ensures r.Err? <==> '\n' !in req.text && !KnownBaselineMode(req.baselineAlign)
    ensures r.Ok? ==> var off := EffectiveOffset(req.shadowColor, req.shadowOffset);
                      r.value.shadow == Vec2(r.value.text.x + off.x, r.value.text.y + off.y)
  {
    var multiline := '\n' in req.text;
    var descent := if multiline then 0 else req.metrics.descent;
    var off := EffectiveOffset(req.shadowColor, req.shadowOffset);
    var pads := EffectivePads(req.padx, req.pady, req.padding);
    var fitted := Canvas(req.metrics, pads, req.shadowColor.Some?, off, req.minSize, FallbackRatio(req.aspectRatio, req.minSize));
    var aligned :- AlignBaseline(fitted, multiline, req.baselineAlign, descent, req.metrics.height, pads, off.y);
    Ok(Placement(aligned.width, aligned.height, Vec2(aligned.x, aligned.y), Vec2(aligned.x + off.x, aligned.y + off.y)))
  }

  /** With no shadow, no minimum size, no active ratio and no baseline
      nudge, the canvas is the text plus its padding and the text sits at
      the top-left padding corner. */
  lemma LayoutTight(req: Request)
    requires req.shadowColor.None? && req.minSize.None? && !Fits(req.aspectRatio)
    requires req.baselineAlign == "none" || '\n' in req.text
    ensures var pads := EffectivePads(req.padx, req.pady, req.padding);
            var m := req.metrics;
            ComputeLayout(req)
            == Ok(Placement(m.width + pads.left + pads.right, m.height + pads.top + pads.bottom,
                            Vec2(pads.left, pads.top), Vec2(pads.left, pads.top)))
  {
  }

  /** A `padding` pair (h, v) lays out exactly as `padx = (h, h)` and
      `pady = (v, v)` with no `padding`. */
  lemma LayoutPaddingOverride(req: Request, p: Vec2)
    requires req.padding == Some(p)
    ensures ComputeLayout(req) == ComputeLayout(req.(padx := Vec2(p.x, p.x), pady := Vec2(p.y, p.y), padding := None))
  {
    var alt := req.(padx := Vec2(p.x, p.x), pady := Vec2(p.y, p.y), padding := None);
    var pads := Pads(p.x, p.x, p.y, p.y);
    assert EffectivePads(req.padx, req.pady, req.padding) == pads;
    assert EffectivePads(alt.padx, alt.pady, alt.padding) == pads;
    assert alt.text == req.text && alt.metrics == req.metrics && alt.baselineAlign == req.baselineAlign;
    assert alt.shadowColor == req.shadowColor && alt.shadowOffset == req.shadowOffset;
    assert alt.aspectRatio == req.aspectRatio && alt.minSize == req.minSize;
  }

  /** Multi-line text ignores the baseline mode entirely, unknown modes
      included. */
  lemma LayoutMultilineIgnoresBaseline(req: Request, mode: string)
    requires '\n' in req.text
    ensures ComputeLayout(req.(baselineAlign := mode)) == ComputeLayout(req)
  {
  }

  /** Without aspect fitting the canvas holds the text, its padding and its
      shadow: neither layer starts inside the top or left padding, and the
      text with its bottom/right padding and the shadow's extent ends inside
      the canvas. */
  lemma {:induction false} LayoutKeepsContentInside(req: Request)
    requires !Fits(FallbackRatio(req.aspectRatio, req.minSize))
    requires ComputeLayout(req).Ok?
    ensures var r := ComputeLayout(req).value;
            var pads := EffectivePads(req.padx, req.pady, req.padding);
            var off := EffectiveOffset(req.shadowColor, req.shadowOffset);
            var m := req.metrics;
            && r.width >= m.width + pads.left + pads.right + Abs(off.x)
            && r.height >= m.height + pads.top + pads.bottom + Abs(off.y)
            && r.text.x >= pads.left && r.shadow.x >= pads.left
            && r.text.y >= pads.top && r.shadow.y >= pads.top
            && r.text.x + m.width + pads.right + Max(0, off.x) <= r.width
            && r.text.y + m.height + pads.bottom + Max(0, off.y) <= r.height
  {
    var multiline := '\n' in req.text;
    var descent := if multiline then 0 else req.metrics.descent;
    var off := EffectiveOffset(req.shadowColor, req.shadowOffset);
    var pads := EffectivePads(req.padx, req.pady, req.padding);
    var m := req.metrics;
    var extended := ShadowFrame(m, pads, req.shadowColor.Some?, off);
    var sized := ApplyMinSize(extended, req.minSize);
    var fitted := FitAspect(sized, FallbackRatio(req.aspectRatio, req.minSize));
    assert fitted == sized;
    var aligned := AlignBaseline(fitted, multiline, req.baselineAlign, descent, m.height, pads, off.y).value;
    var lower, upper := LowerBound(pads, off.y), UpperBound(sized.height, pads, m.height, off.y);
    assert lower <= sized.y <= upper by {
      var g := sized.height - extended.height;
      assert sized.y - extended.y == g / 2 && 0 <= g / 2 <= g;
    }
    assert lower <= aligned.y <= upper;
    assert ComputeLayout(req).value
           == Placement(aligned.width, aligned.height, Vec2(aligned.x, aligned.y), Vec2(aligned.x + off.x, aligned.y + off.y));
  }

  /** The steps of `ComputeLayout` one by one: the effective padding and
      offset, the canvas, then the baseline alignment of the text origin. */
  lemma ComputeLayoutSteps(req: Request, pads: Pads, off: Vec2, fitted: Frame, aligned: Frame)
    requires pads == EffectivePads(req.padx, req.pady, req.padding)
    requires off == EffectiveOffset(req.shadowColor, req.shadowOffset)
    requires fitted == Canvas(req.metrics, pads, req.shadowColor.Some?, off, req.minSize, FallbackRatio(req.aspectRatio, req.minSize))
    requires var multiline := '\n' in req.text;
             AlignBaseline(fitted, multiline, req.baselineAlign, if multiline then 0 else req.metrics.descent,
                           req.metrics.height, pads, off.y) == Ok(aligned)
    ensures ComputeLayout(req) == Ok(Placement(aligned.width, aligned.height, Vec2(aligned.x, aligned.y),
                                               Vec2(aligned.x + off.x, aligned.y + off.y)))
  {
  }

  /** With aspect fitting active, from an explicit ratio or from the
      minimum size, and no negative padding, the final canvas has the
      ratio up to one pixel: baseline alignment moves only the origin.
      The text is multi-line or its baseline mode is known, which is
      exactly when `ComputeLayout` succeeds. */
  lemma LayoutKeepsRatio(req: Request)
    requires Fits(FallbackRatio(req.aspectRatio, req.minSize))
    requires '\n' in req.text || KnownBaselineMode(req.baselineAlign)
    requires var pads := EffectivePads(req.padx, req.pady, req.padding);
             pads.left >= 0 && pads.right >= 0 && pads.top >= 0 && pads.bottom >= 0
    ensures var r := ComputeLayout(req).value;
            var ratio := FallbackRatio(req.aspectRatio, req.minSize).value;
            RatioWithinOne(r.width, r.height, ratio.num, ratio.den)
  {
    var pads := EffectivePads(req.padx, req.pady, req.padding);
    var off := EffectiveOffset(req.shadowColor, req.shadowOffset);
    var ratio := FallbackRatio(req.aspectRatio, req.minSize);
    var extended := ShadowFrame(req.metrics, pads, req.shadowColor.Some?, off);
    var sized := ApplyMinSize(extended, req.minSize);
    assert sized.width >= 0 && sized.height >= 0;
    var fitted := Canvas(req.metrics, pads, req.shadowColor.Some?, off, req.minSize, ratio);
    assert fitted == FitAspect(sized, ratio);
    FitAspectKeepsRatio(sized, ratio);
    var multiline := '\n' in req.text;
    var aligned := AlignBaseline(fitted, multiline, req.baselineAlign, if multiline then 0 else req.metrics.descent,
                                 req.metrics.height, pads, off.y);
    assert aligned.Ok?;
    assert aligned.value.width == fitted.width && aligned.value.height == fitted.height;
    ComputeLayoutSteps(req, pads, off, fitted, aligned.value);
  }

  /** The canvas of a 3x3 text with no padding, shadow or minimum size,
      fitted to 3/2. */
  lemma CanvasMayCrop(m: Metrics)
    requires m.width == 3 && m.height == 3
    ensures Canvas(m, Pads(0, 0, 0, 0), false, Vec2(0, 0), None, Some(Ratio(3, 2))) == Frame(0, -1, 4, 2)
  {
    var extended := ShadowFrame(m, Pads(0, 0, 0, 0), false, Vec2(0, 0));
    assert extended == Frame(0, 0, 3, 3);
    assert ApplyMinSize(extended, None) == extended;
    FitAspectMayShrink();
  }

  /** Aspect fitting can crop: a 3x3 text with no padding, shadow or
      minimum size, fitted to 3/2, gets a 4x2 canvas with the text origin
      one pixel above the top edge. */
  lemma LayoutAspectMayCrop(req: Request)
    requires req.metrics.width == 3 && req.metrics.height == 3
    requires req.shadowColor.None? && req.padding == Some(Vec2(0, 0)) && req.minSize.None?
    requires req.aspectRatio == Some(Ratio(3, 2)) && req.baselineAlign == "none"
    ensures ComputeLayout(req) == Ok(Placement(4, 2, Vec2(0, -1), Vec2(0, -1)))
  {
    var pads, off := Pads(0, 0, 0, 0), Vec2(0, 0);
    assert pads == EffectivePads(req.padx, req.pady, req.padding);
    assert off == EffectiveOffset(req.shadowColor, req.shadowOffset);
    assert FallbackRatio(req.aspectRatio, req.minSize) == Some(Ratio(3, 2));
    CanvasMayCrop(req.metrics);
    var fitted := Frame(0, -1, 4, 2);
    var multiline := '\n' in req.text;
    assert AlignBaseline(fitted, multiline, req.baselineAlign, if multiline then 0 else req.metrics.descent,
                         req.metrics.height, pads, off.y) == Ok(fitted);
    ComputeLayoutSteps(req, pads, off, fitted, fitted);
  }

  /** A single-line text with shadow offset (5,5) and no padding gets a
      canvas exactly 5 pixels larger than the text in each direction, with
      the shadow 5 pixels right of and below the text. */
  lemma LayoutShadowOffset(req: Request)
    requires req.shadowColor.Some? && req.shadowOffset == Vec2(5, 5)
    requires req.padding == Some(Vec2(0, 0)) && req.minSize.None? && !Fits(req.aspectRatio)
    requires req.baselineAlign == "none"
    ensures ComputeLayout(req)
            == Ok(Placement(req.metrics.width + 5, req.metrics.height + 5, Vec2(0, 0), Vec2(5, 5)))
  {
  }
}

=== FILE: measures.dfy ===
/** The unit conversions of text2image.py (`px`, `pt`) and the argument
    converters of t2i.py built on them: `any_measure_type`, `measure_type`,
    `vec2_type`, `positive_vec2_type` and `alignment_type`. */
module Measures {
  import opened Types
  import opened Text

  /** Pixels are the unit of every size, so `px` is the identity. */
  function Px(x: int): (r: int)
    ensures r == x
  {
    x
  }

  /** Points to pixels at 96/72 DPI, truncated toward zero like Python's
      `int()` does, so that `Pt(-1) == -1` and not -2. */
  function Pt(x: int): (r: int)
    ensures 0 <= x ==> 0 <= r && 3 * r <= 4 * x < 3 * r + 3
    ensures x < 0 ==> r <= 0 && 4 * x <= 3 * r < 4 * x + 3
  {
    if x >= 0 then 4 * x / 3 else -((-4 * x) / 3)
  }

  /** The conversion is odd: a negated point size gives the negated pixel size. */
  lemma PtOdd(x: int)
    ensures Pt(-x) == -Pt(x)
  {
  }

  /** `any_measure_type`: "Npx" is N pixels, "Npt" is N points, a bare "N" is N pixels. */
  function AnyMeasure(m: string): (r: Result<int>)
    ensures r.Err? ==> r.error.InvalidInt?
  {
    if EndsWith(m, "px") then
      var v :- ParseInt(m[..|m| - 2]);
      Ok(Px(v))
    else if EndsWith(m, "pt") then
      var v :- ParseInt(m[..|m| - 2]);
      Ok(Pt(v))
    else
      ParseInt(m)
  }

  /** The three spellings of a measure read back as the intended pixel count. */
  lemma AnyMeasureSpellings(n: int)
    ensures AnyMeasure(IntToString(n) + "px") == Ok(n)
    ensures AnyMeasure(IntToString(n) + "pt") == Ok(Pt(n))
    ensures AnyMeasure(IntToString(n)) == Ok(n)
  {
    var s := IntToString(n);
    ParseIntOfString(n);
    IntToStringEndsInDigit(n);
    assert (s + "px")[..|s + "px"| - 2] == s;
    assert (s + "pt")[..|s + "pt"| - 2] == s;
    assert !EndsWith(s, "px") && !EndsWith(s, "pt");
    assert !EndsWith(s + "pt", "px");
  }

  /** Every number `int()` accepts, signs and leading zeros included, is
      read with either suffix or none. */
  lemma AnyMeasureDigits(d: string)
    requires ParseInt(d).Ok?
    ensures AnyMeasure(d + "px") == Ok(ParseInt(d).value)
    ensures AnyMeasure(d + "pt") == Ok(Pt(ParseInt(d).value))
    ensures AnyMeasure(d) == ParseInt(d)
  {
    assert IsDecimalDigit(d[|d| - 1]);
    assert (d + "px")[..|d + "px"| - 2] == d;
    assert (d + "pt")[..|d + "pt"| - 2] == d;
    assert !EndsWith(d, "px") && !EndsWith(d, "pt");
    assert !EndsWith(d + "pt", "px");
  }

  /** `measure_type`: `any_measure_type` that refuses negative results. */
  function Measure(m: string): (r: Result<int>)
    ensures r.Ok? <==> AnyMeasure(m).Ok? && AnyMeasure(m).value >= 0
    ensures r.Ok? ==> r.value == AnyMeasure(m).value
    ensures AnyMeasure(m).Err? ==> r == AnyMeasure(m)
    ensures AnyMeasure(m).Ok? && AnyMeasure(m).value < 0 ==> r == Err(NegativeMeasure)
  {
    var v :- AnyMeasure(m);
    if v < 0 then Err(NegativeMeasure) else Ok(v)
  }

  /** `vec2_type`: exactly two comma-separated measures, either sign. */
  function Vec2Type(s: string): (r: Result<Vec2>)
    ensures var parts := Split(s, ',');
            r.Ok? <==> |parts| == 2 && AnyMeasure(parts[0]).Ok? && AnyMeasure(parts[1]).Ok?
    ensures var parts := Split(s, ',');
            r.Ok? ==> r.value == Vec2(AnyMeasure(parts[0]).value, AnyMeasure(parts[1]).value)
  {
    var values :- TryMap(Split(s, ','), AnyMeasure);
    if |values| != 2 then Err(NotAVec2) else Ok(Vec2(values[0], values[1]))
  }

  /** `positive_vec2_type`: exactly two comma-separated measures, each at
      least zero. A negative part is reported before a wrong count. */
  function PositiveVec2Type(s: string): (r: Result<Vec2>)
    ensures r.Ok? ==> r.value.x >= 0 && r.value.y >= 0
    ensures var parts := Split(s, ',');
            r.Ok? <==> |parts| == 2 && Measure(parts[0]).Ok? && Measure(parts[1]).Ok?
  {
    var values :- TryMap(Split(s, ','), Measure);
    if |values| != 2 then Err(NotANonNegativeVec2) else Ok(Vec2(values[0], values[1]))
  }

  /** The non-negative converter accepts exactly the pairs the signed one
      accepts with both components at least zero, and reads the same pair. */
  lemma PositiveVec2AgreesWithVec2(s: string)
    ensures PositiveVec2Type(s).Ok? <==> Vec2Type(s).Ok? && Vec2Type(s).value.x >= 0 && Vec2Type(s).value.y >= 0
    ensures PositiveVec2Type(s).Ok? ==> PositiveVec2Type(s) == Vec2Type(s)
  {
  }

  /** A pair printed as "a,b" reads back as (a, b). */
  lemma Vec2RoundTrip(a: int, b: int)
    ensures Vec2Type(IntToString(a) + "," + IntToString(b)) == Ok(Vec2(a, b))
  {
    PairSplits(a, b);
    AnyMeasureSpellings(a);
    AnyMeasureSpellings(b);
  }

  /** A pair of non-negative values printed as "a,b" reads back as (a, b). */
  lemma PositiveVec2RoundTrip(a: nat, b: nat)
    ensures PositiveVec2Type(IntToString(a) + "," + IntToString(b)) == Ok(Vec2(a, b))
  {
    PairSplits(a, b);
    AnyMeasureSpellings(a);
    AnyMeasureSpellings(b);
  }

  lemma PairSplits(a: int, b: int)
    ensures Split(IntToString(a) + "," + IntToString(b), ',') == [IntToString(a), IntToString(b)]
  {
    var sa, sb := IntToString(a), IntToString(b);
    IntToStringEndsInDigit(a);
    IntToStringEndsInDigit(b);
    assert sa + "," + sb == sa + [','] + sb;
    SplitPair(sa, ',', sb);
  }

  /** `alignment_type`: accepts exactly "left", "center" and "right" and
      returns its argument unchanged. */
  function AlignmentType(s: string): (r: Result<string>)
    ensures r.Ok? <==> s == "left" || s == "center" || s == "right"
    ensures r.Ok? ==> r.value == s
    ensures r.Err? ==> r.error == BadAlignment
  {
    if s in ["left", "center", "right"] then Ok(s) else Err(BadAlignment)
  }
}

=== FILE: sanitize.dfy ===
/** `sanitize_filename` of text2image.py: every character outside the safe
    set `[a-zA-Z0-9. -]` is rewritten, whitespace to one space, a code point
    of 128 or more to `U-<decimal code point>-`, and anything else dropped. */
module Sanitize {
  import opened Text

  /** The characters the regular expression `[^a-zA-Z0-9\. \-]` leaves alone. */
  predicate IsSafe(c: char) {
    'a' <= c <= 'z' || 'A' <= c <= 'Z' || '0' <= c <= '9' || c == '.' || c == ' ' || c == '-'
  }

  predicate AllSafe(s: string) {
    forall i :: 0 <= i < |s| ==> IsSafe(s[i])
  }

  /** What the replacement callback returns for one unsafe character. */
  function Replacement(c: char): (r: string)
    requires !IsSafe(c)
    ensures AllSafe(r)
    ensures IsSpace(c) ==> r == " "
    ensures !IsSpace(c) && c as int >= 128 ==> r == "U-" + NatToString(c as int) + "-"
    ensures !IsSpace(c) && c as int < 128 ==> r == []
  {
    if IsSpace(c) then " "
    else if c as int >= 128 then "U-" + NatToString(c as int) + "-"
    else ""
  }

  /** The rewrite of one character, safe or not: a safe character is
      kept, and the only safe whitespace is the space itself. */
  function SanitizeChar(c: char): (r: string)
    ensures AllSafe(r)
    ensures IsSafe(c) ==> r == [c]
    ensures IsSpace(c) ==> r == " "
    ensures !IsSafe(c) && !IsSpace(c) && c as int >= 128 ==> r == "U-" + NatToString(c as int) + "-"
    ensures !IsSafe(c) && !IsSpace(c) && c as int < 128 ==> r == []
  {
    if IsSafe(c) then [c] else Replacement(c)
  }

  function SanitizeFilename(s: string): (r: string)
    ensures AllSafe(r)
    ensures AllSafe(s) ==> r == s
  {
    if s == [] then [] else SanitizeChar(s[0]) + SanitizeFilename(s[1..])
  }

  /** The rewrite works character by character: sanitising a concatenation
      is concatenating the sanitised halves. */
  lemma {:induction false} SanitizeConcat(a: string, b: string)
    ensures SanitizeFilename(a + b) == SanitizeFilename(a) + SanitizeFilename(b)
  {
    if a == [] {
      assert a + b == b;
    } else {
      assert (a + b)[0] == a[0] && (a + b)[1..] == a[1..] + b;
      SanitizeConcat(a[1..], b);
    }
  }

  /** A single character is rewritten by the replacement callback exactly
      when it is unsafe; with `SanitizeConcat` this fixes the rewrite of
      every string. */
  lemma SanitizeOne(c: char)
    ensures SanitizeFilename([c]) == (if IsSafe(c) then [c] else Replacement(c))
  {
    assert [c][1..] == [];
  }

  /** Sanitising twice is sanitising once. */
  lemma SanitizeIdempotent(s: string)
    ensures SanitizeFilename(SanitizeFilename(s)) == SanitizeFilename(s)
  {
  }
}

=== FILE: text.dfy ===
/** Character-level helpers the converters share: digits and their values,
    Python's `int()` on plain digit strings, decimal printing, `str.split`
    on one separator character, `str.strip` of one character, suffix tests
    and Python's `str.isspace`. */
module Text {
  import opened Types

  predicate IsDecimalDigit(c: char) {
    '0' <= c <= '9'
  }

  predicate IsHexDigit(c: char) {
    IsDecimalDigit(c) || 'a' <= c <= 'f' || 'A' <= c <= 'F'
  }

  /** The value of one hexadecimal digit, in either case. */
  function HexDigitValue(c: char): (d: nat)
    requires IsHexDigit(c)
    ensures d < 16
    ensures IsDecimalDigit(c) <==> d < 10
  {
    if IsDecimalDigit(c) then c as int - '0' as int
    else if 'a' <= c <= 'f' then c as int - 'a' as int + 10
    else c as int - 'A' as int + 10
  }

  /** Every character of `s` is a digit of the given base (10 or 16). */
  predicate AllDigits(s: string, base: nat) {
    forall i :: 0 <= i < |s| ==> IsHexDigit(s[i]) && HexDigitValue(s[i]) < base
  }

  /** The positional value of a digit string, most significant digit first. */
  function DigitsValue(s: string, base: nat): (v: nat)
    requires AllDigits(s, base)
  {
    if s == [] then 0
    else DigitsValue(s[..|s| - 1], base) * base + HexDigitValue(s[|s| - 1])
  }

  /** The decimal digit character for `d`. */
  function DigitChar(d: nat): (c: char)
    requires d < 10
    ensures IsDecimalDigit(c) && HexDigitValue(c) == d
  {
    ('0' as int + d) as char
  }

  /** The lower-case hexadecimal digit character for `d`. */
  function HexDigitChar(d: nat): (c: char)
    requires d < 16
    ensures IsHexDigit(c) && HexDigitValue(c) == d
  {
    if d < 10 then DigitChar(d) else ('a' as int + d - 10) as char
  }

  /** The decimal spelling of `n` that Python's `str(n)` produces: no sign,
      no leading zero unless `n` is zero. */
  function NatToString(n: nat): (s: string)
    ensures |s| > 0 && AllDigits(s, 10)
    ensures |s| > 1 ==> s[0] != '0'
  {
    if n < 10 then [DigitChar(n)] else NatToString(n / 10) + [DigitChar(n % 10)]
  }

  /** `str(n)` for any integer, with a leading '-' when negative. */
  function IntToString(n: int): string {
    if n < 0 then "-" + NatToString(-n) else NatToString(n)
  }

  /** `str(n)` is non-empty, ends in a digit and holds no comma. */
  lemma IntToStringEndsInDigit(n: int)
    ensures |IntToString(n)| > 0 && IsDecimalDigit(IntToString(n)[|IntToString(n)| - 1])
    ensures ',' !in IntToString(n)
  {
    var s := IntToString(n);
    if n < 0 {
      assert s[1..] == NatToString(-n);
    }
  }

  lemma {:induction false} NatToStringValue(n: nat)
    ensures DigitsValue(NatToString(n), 10) == n
  {
    if n >= 10 {
      var s := NatToString(n);
      assert s[..|s| - 1] == NatToString(n / 10);
      NatToStringValue(n / 10);
    }
  }

  /** Python's `int(s, base)` restricted to a plain digit string: at least
      one digit and nothing else. */
  function ParseDigits(s: string, base: nat): (r: Result<nat>)
    ensures r.Ok? <==> |s| > 0 && AllDigits(s, base)
    ensures r.Err? ==> r.error == InvalidInt(s)
  {
    if |s| > 0 && AllDigits(s, base) then Ok(DigitsValue(s, base)) else Err(InvalidInt(s))
  }

  /** Python's `int(s, base)` on an optional '+' or '-' sign followed by
      digits of the base. */
  function ParseSigned(s: string, base: nat): (r: Result<int>)
    ensures r.Err? ==> r.error == InvalidInt(s)
    ensures r.Ok? <==> |s| > 0 && (AllDigits(s, base) || ((s[0] == '-' || s[0] == '+') && |s| > 1 && AllDigits(s[1..], base)))
    ensures r.Ok? && s[0] != '-' ==> r.value >= 0
    ensures |s| > 0 && s[0] != '-' && s[0] != '+' ==> r == ParseDigits(s, base)
    ensures r.Ok? && (s[0] == '-' || s[0] == '+') ==>
              AllDigits(s[1..], base) && r.value == (if s[0] == '-' then -(DigitsValue(s[1..], base) as int) else DigitsValue(s[1..], base))
  {
    if |s| > 0 && (s[0] == '-' || s[0] == '+') then
      match ParseDigits(s[1..], base)
      case Ok(v) => var n: int := v; Ok(if s[0] == '-' then -n else n)
      case Err(_) => Err(InvalidInt(s))
    else
      match ParseDigits(s, base)
      case Ok(v) => Ok(v)
      case Err(e) => Err(e)
  }

  /** Python's `int(s)` in base 10. */
  function ParseInt(s: string): (r: Result<int>)
    ensures r.Err? ==> r.error == InvalidInt(s)
    ensures r.Ok? ==> forall i :: 0 <= i < |s| ==> IsDecimalDigit(s[i]) || (i == 0 && (s[i] == '-' || s[i] == '+'))
  {
    ParseSigned(s, 10)
  }

  lemma ParseIntOfString(n: int)
    ensures ParseInt(IntToString(n)) == Ok(n)
  {
    var s := IntToString(n);
    if n < 0 {
      var digits := NatToString(-n);
      NatToStringValue(-n);
      assert s[0] == '-' && s[1..] == digits;
      assert ParseDigits(digits, 10) == Ok(-n);
    } else {
      NatToStringValue(n);
      assert IsDecimalDigit(s[0]);
      assert ParseDigits(s, 10) == Ok(n);
    }
  }

  predicate EndsWith(s: string, suffix: string) {
    |suffix| <= |s| && s[|s| - |suffix|..] == suffix
  }

  /** Python's `s.split(sep)` for a one-character separator: the maximal
      runs between separators, so one more piece than separators. */
  function Split(s: string, sep: char): (parts: seq<string>)
    ensures |parts| >= 1
  {
    if s == [] then [[]]
    else
      var rest := Split(s[1..], sep);
      if s[0] == sep then [[]] + rest
      else [[s[0]] + rest[0]] + rest[1..]
  }

  /** No piece contains the separator. */
  lemma {:induction false} SplitPiecesFree(s: string, sep: char)
    ensures forall i :: 0 <= i < |Split(s, sep)| ==> sep !in Split(s, sep)[i]
  {
    if s != [] {
      SplitPiecesFree(s[1..], sep);
      var parts, rest := Split(s, sep), Split(s[1..], sep);
      assert s[0] != sep ==> parts == [[s[0]] + rest[0]] + rest[1..];
      forall i | 0 <= i < |parts|
        ensures sep !in parts[i]
      {
        if s[0] == sep {
          if i > 0 {
            assert parts[i] == rest[i - 1];
          }
        } else if i == 0 {
          assert sep !in rest[0];
          assert sep !in [s[0]] + rest[0];
        } else {
          assert parts[i] == rest[i];
        }
      }
    }
  }

  /** `sep.join(parts)`. */
  function Join(parts: seq<string>, sep: char): string
    requires |parts| >= 1
  {
    if |parts| == 1 then parts[0] else parts[0] + [sep] + Join(parts[1..], sep)
  }

  /** Splitting and joining again gives the string back. */
  lemma {:induction false} JoinSplit(s: string, sep: char)
    ensures Join(Split(s, sep), sep) == s
  {
    if s != [] {
      var c, t := s[0], s[1..];
      assert s == [c] + t;
      JoinSplit(t, sep);
      var rest := Split(t, sep);
      var parts := Split(s, sep);
      if c == sep {
        SplitConsSep(t, sep);
        assert parts[1..] == rest;
        assert Join(parts, sep) == [] + [sep] + Join(rest, sep);
      } else {
        SplitConsOther(c, t, sep);
        if |rest| == 1 {
          assert parts == [[c] + rest[0]];
        } else {
          assert parts[0] == [c] + rest[0] && parts[1..] == rest[1..];
          assert Join(parts, sep) == ([c] + rest[0]) + [sep] + Join(rest[1..], sep);
          assert Join(rest, sep) == rest[0] + [sep] + Join(rest[1..], sep);
        }
      }
    }
  }

  lemma {:induction false} SplitNoSeparator(s: string, sep: char)
    requires sep !in s
    ensures Split(s, sep) == [s]
  {
    if s != [] {
      SplitNoSeparator(s[1..], sep);
      assert [s[0]] + s[1..] == s;
    }
  }

  /** One unfolding of `Split` on a string starting with the separator. */
  lemma SplitConsSep(t: string, sep: char)
    ensures Split([sep] + t, sep) == [[]] + Split(t, sep)
  {
    assert ([sep] + t)[1..] == t;
  }

  /** One unfolding of `Split` on a string starting with another character. */
  lemma SplitConsOther(c: char, t: string, sep: char)
    requires c != sep
    ensures var rest := Split(t, sep); Split([c] + t, sep) == [[c] + rest[0]] + rest[1..]
  {
    assert ([c] + t)[0] == c && ([c] + t)[1..] == t;
  }

  /** A separator-free first piece is split off as it is. */
  lemma {:induction false} SplitPiece(a: string, sep: char, b: string)
    requires sep !in a
    ensures Split(a + [sep] + b, sep) == [a] + Split(b, sep)
  {
    var rb := Split(b, sep);
    if a == [] {
      assert a + [sep] + b == [sep] + b;
      SplitConsSep(b, sep);
    } else {
      var c, t := a[0], a[1..];
      assert a + [sep] + b == [c] + (t + [sep] + b);
      SplitPiece(t, sep, b);
      SplitConsOther(c, t + [sep] + b, sep);
      assert ([t] + rb)[0] == t && ([t] + rb)[1..] == rb;
      assert [c] + t == a;
    }
  }

  /** Two separator-free pieces joined by the separator split back apart. */
  lemma SplitPair(a: string, sep: char, b: string)
    requires sep !in a && sep !in b
    ensures Split(a + [sep] + b, sep) == [a, b]
  {
    SplitPiece(a, sep, b);
    SplitNoSeparator(b, sep);
  }

  /** Three separator-free pieces joined by the separator split back apart. */
  lemma SplitTriple(a: string, sep: char, b: string, d: string)
    requires sep !in a && sep !in b && sep !in d
    ensures Split(a + [sep] + b + [sep] + d, sep) == [a, b, d]
  {
    assert a + [sep] + b + [sep] + d == a + [sep] + (b + [sep] + d);
    SplitPiece(a, sep, b + [sep] + d);
    SplitPair(b, sep, d);
  }

  /** Joining separator-free pieces and splitting again gives the pieces back. */
  lemma {:induction false} SplitJoin(parts: seq<string>, sep: char)
    requires |parts| >= 1
    requires forall i :: 0 <= i < |parts| ==> sep !in parts[i]
    ensures Split(Join(parts, sep), sep) == parts
  {
    if |parts| == 1 {
      SplitNoSeparator(parts[0], sep);
    } else {
      SplitJoin(parts[1..], sep);
      SplitPiece(parts[0], sep, Join(parts[1..], sep));
      assert [parts[0]] + parts[1..] == parts;
    }
  }

  /** `s.lstrip(c)`. */
  function StripLeading(s: string, c: char): (r: string)
    ensures |r| <= |s| && r == s[|s| - |r|..]
    ensures forall k :: 0 <= k < |s| - |r| ==> s[k] == c
    ensures r == [] || r[0] != c
  {
    if |s| > 0 && s[0] == c then StripLeading(s[1..], c) else s
  }

  /** `s.rstrip(c)`. */
  function StripTrailing(s: string, c: char): (r: string)
    ensures |r| <= |s| && r == s[..|r|]
    ensures forall k :: |r| <= k < |s| ==> s[k] == c
    ensures r == [] || r[|r| - 1] != c
  {
    if |s| > 0 && s[|s| - 1] == c then StripTrailing(s[..|s| - 1], c) else s
  }

  /** `s.strip(c)`: the longest infix of `s` that neither starts nor ends
      with `c`, everything cut off on either side being `c`. */
  function Strip(s: string, c: char): (r: string)
    ensures r == [] || (r[0] != c && r[|r| - 1] != c)
    ensures exists i :: StripCut(s, c, r, i)
  {
    StripCuts(s, c);
    var lead := StripLeading(s, c);
    var r := StripTrailing(lead, c);
    assert StripCut(s, c, r, |s| - |lead|);
    r
  }

  /** `r` sits in `s` at offset `i` with only `c` before and after it. */
  predicate StripCut(s: string, c: char, r: string, i: int) {
    && 0 <= i <= |s| - |r| && r <= s[i..]
    && (forall k :: 0 <= k < i ==> s[k] == c)
    && (forall k :: i + |r| <= k < |s| ==> s[k] == c)
  }

  lemma StripCuts(s: string, c: char)
    ensures var lead := StripLeading(s, c);
            StripCut(s, c, StripTrailing(lead, c), |s| - |lead|)
  {
    var lead := StripLeading(s, c);
    var r := StripTrailing(lead, c);
    var i := |s| - |lead|;
    assert lead == s[i..];
    forall k | i + |r| <= k < |s|
      ensures s[k] == c
    {
      assert s[k] == lead[k - i];
    }
  }

  /** A string made only of `c` is stripped away entirely. */
  lemma {:induction false} StripAll(s: string, c: char)
    requires forall i :: 0 <= i < |s| ==> s[i] == c
    ensures StripLeading(s, c) == []
  {
    if s != [] {
      StripAll(s[1..], c);
    }
  }

  /** `lstrip` removes a prefix made only of `c` and stops at the first
      other character. */
  lemma {:induction false} StripLeadingPrefix(a: string, t: string, c: char)
    requires forall i :: 0 <= i < |a| ==> a[i] == c
    requires t == [] || t[0] != c
    ensures StripLeading(a + t, c) == t
  {
    if a == [] {
      assert a + t == t;
    } else {
      assert (a + t)[0] == c && (a + t)[1..] == a[1..] + t;
      StripLeadingPrefix(a[1..], t, c);
    }
  }

  /** `rstrip` removes a suffix made only of `c` and stops at the last
      other character. */
  lemma {:induction false} StripTrailingSuffix(t: string, b: string, c: char)
    requires forall i :: 0 <= i < |b| ==> b[i] == c
    requires t == [] || t[|t| - 1] != c
    ensures StripTrailing(t + b, c) == t
  {
    if b == [] {
      assert t + b == t;
    } else {
      var s := t + b;
      assert s[|s| - 1] == c && s[..|s| - 1] == t + b[..|b| - 1];
      StripTrailingSuffix(t, b[..|b| - 1], c);
    }
  }

  /** A string that neither starts nor ends with `c` is left as it is. */
  lemma StripNoop(s: string, c: char)
    ensures s == [] || (s[0] != c && s[|s| - 1] != c) ==> Strip(s, c) == s
  {
    if s == [] || (s[0] != c && s[|s| - 1] != c) {
      assert StripLeading(s, c) == s;
      assert StripTrailing(s, c) == s;
    }
  }

  /** Python's `str.isspace` on one character: the code points whose
      bidirectional class is whitespace, segment or paragraph separator, or
      whose category is a space separator. */
  predicate IsSpace(c: char): (r: bool)
    ensures c as int < 128 ==> (r <==> c in " \t\n\r\U{0B}\U{0C}\U{1C}\U{1D}\U{1E}\U{1F}")
    ensures r ==> !('a' <= c <= 'z' || 'A' <= c <= 'Z' || '0' <= c <= '9')
  {
    var n := c as int;
    || 0x09 <= n <= 0x0D || 0x1C <= n <= 0x20
    || n == 0x85 || n == 0xA0 || n == 0x1680
    || 0x2000 <= n <= 0x200A
    || n == 0x2028 || n == 0x2029 || n == 0x202F || n == 0x205F
    || n == 0x3000
  }
}

=== FILE: types.dfy ===
/** Shared value types of Text2Image: the Vec2 and RGBColor aliases of
    text2image.py, an optional value, and the ValueError outcomes of the
    string converters, carried as a failure-compatible Result. */
module Types {

  /** An optional value; Python's `None` is `None`. */
  datatype Option<+T> = None | Some(value: T)

  /** An ordered pair of integer pixel measures (`Vec2` in text2image.py). */
  datatype Vec2 = Vec2(x: int, y: int)

  /** A red/green/blue triple (`RGBColor` in text2image.py). The components
      are unbounded integers: the converters are what keep them in range. */
  datatype Rgb = Rgb(r: int, g: int, b: int)

  /** True when every component of `c` fits in one byte. */
  predicate InByteRange(c: Rgb) {
    0 <= c.r <= 255 && 0 <= c.g <= 255 && 0 <= c.b <= 255
  }

  /** Every `ValueError` the converters and the layout engine raise, one
      constructor per distinct message. */
  datatype Error =
    | InvalidInt(text: string)     // int(...) refused its argument
    | BadHexLength                 // a hex colour without 1, 2, 3 or 6 digits
    | NotATriple                   // a decimal colour without exactly three parts
    | ComponentOutOfRange          // a decimal colour component outside [0,255]
    | NegativeMeasure              // measure_type on a negative value
    | NotAVec2                     // vec2_type without exactly two parts
    | NotANonNegativeVec2          // positive_vec2_type without exactly two parts
    | BadAlignment                 // alignment_type outside left/center/right
    | BadBaselineAlign             // baseline_align outside none/broad/perfect

  /** Either a value or the error that was raised instead of returning it. */
  datatype Result<+T> = Ok(value: T) | Err(error: Error) {

    predicate IsFailure() {
      Err?
    }

    function PropagateFailure<U>(): Result<U>
      requires Err?
    {
      Err(error)
    }

    function Extract(): T
      requires Ok?
    {
      value
    }
  }

  /** Applies `f` to each element from left to right, stopping at the
      first failure: Python's `tuple(f(x) for x in xs)`. */
  function TryMap<A, B>(xs: seq<A>, f: A -> Result<B>): (r: Result<seq<B>>)
    ensures r.Ok? <==> forall i :: 0 <= i < |xs| ==> f(xs[i]).Ok?
    ensures r.Ok? ==> |r.value| == |xs|
    ensures r.Ok? ==> forall i :: 0 <= i < |xs| ==> r.value[i] == f(xs[i]).value
    ensures r.Err? ==> exists i :: 0 <= i < |xs| && f(xs[i]) == Err(r.error)
                                   && forall j :: 0 <= j < i ==> f(xs[j]).Ok?
  {
    if xs == [] then Ok([])
    else
      var y :- f(xs[0]);
      var rest :- TryMap(xs[1..], f);
      Ok([y] + rest)
  }
}
